=== FILE: README.md ===
# StreamSafe script and summary sourcing, in Dafny

StreamSafe gathers material about a movie so that a language model can say
which content triggers it holds. It fetches a Wikipedia summary and a
screenplay, sends both to Gemini in a fixed prompt, and cuts a JSON object
out of the reply. A small Flask front end lists the movies and their
triggers. This project models the deterministic rules inside that pipeline.
The network, the HTML and PDF parsers, the JSON decoder and `urljoin` are
passed in as plain data or functions.

- `wrappers.dfy` (`Wrappers`): `Option` and Python truthiness of an optional string.
- `seqs.dfy` (`Seqs`): subsequences, and the first index satisfying a predicate.
- `dicts.dfy` (`Dicts`): an insertion-ordered dictionary as a list of pairs.
  Assigning to an existing key keeps its place, as a Python `dict` does.
- `pystr.dfy` (`PyStr`): the Python string operations the code relies on:
  - `find` (-1 when absent), `split`, `join`, `split(...)[-1]`;
  - `strip`, with an independent description `Trimmed` that has exactly one solution;
  - `lower` and `count`;
  - slicing with negative bounds and clamping;
  - `str(int)`.
- `sum_scraper.dfy` (`SumScraper`): `sourcing/SumScraper.py`:
  - the keyword filter;
  - the text cleaner;
  - title resolution (Wikidata first, then search);
  - the heading-to-text map;
  - the error record of `get_wikipedia_summary`.
- `script_scraper.dfy` (`ScriptScraper`): `sourcing/ScriptScraper.py`:
  - the PDF text routines;
  - `sfy_get`;
  - `dailyscript_get` with its IMDb-id extraction;
  - the HTML and PDF script fetchers.
- `gemini_analysis.dfy` (`GeminiAnalysis`): from `GeminiAnalysis.py`, the user prompt and the brace slice of the reply.
- `app.dfy` (`App`): from `app.py`:
  - the page offset;
  - grouping of trigger definitions by category;
  - the SQL placeholder list;
  - the director pick;
  - the TMDB lookup loop.

In the script scrapers an HTTP GET either raises or returns a status and a
parsed page. A raise becomes the exception text, which the code puts in its
error string. The summary scraper and the TMDB lookup see a reply or nothing.
A parsed page is modelled as:

- its anchors in document order, each with text, optional `href` and a parent identifier;
- its `get_text(separator="\n")` text;
- what a PDF reader makes of the same bytes.

Two behaviours of the code differ from what its comments suggest. The model
follows the code in both:

- The cleaner is not idempotent. `SumScraper.CleanTextNotIdempotent` shows
  the input `"[\n\nedit\n]"`. The first pass turns it into `"[\nedit\n]"`
  and the second pass turns that into `""`.
- The sfy.ru marker fallback is commented as returning the script content
  after the marker. It returns piece 1 of the split, which is the text
  between the first and the second marker.

## Model

| member | source | states |
|---|---|---|
| SumScraper.FilterRelevantSections | sourcing/SumScraper.py:94-97 | Every kept section has a relevant heading. The result is an order-preserving subsequence of the input. Each relevant section occurs as often as in the input. |
| SumScraper.FilterKeepsExactlyRelevant | sourcing/SumScraper.py:96-97 | A section is kept if and only if its lower-cased heading contains one of plot, synopsis, theme, analysis, story or overview. |
| SumScraper.FilterIdempotent | sourcing/SumScraper.py:97 | Filtering an already filtered list changes nothing. |
| SumScraper.CollapseNewlines | sourcing/SumScraper.py:130 | The result has no two consecutive newlines. It differs from the input only in newlines and starts with the same character. |
| SumScraper.CollapseIsSqueeze | sourcing/SumScraper.py:130 | The collapse equals `SqueezeRuns`, an independent left-to-right reading that keeps the first newline of each run and drops the rest, so every run becomes exactly one newline. |
| SumScraper.CollapseNoRun | sourcing/SumScraper.py:132 | Collapsing a text without newline runs leaves it unchanged. The second collapse, applied to a prefix of collapsed text, therefore changes nothing. |
| SumScraper.NewlineInSpaceRun | sourcing/SumScraper.py:131 | Decides whether `\s*\n` matches at a position: a run of whitespace reaching a newline. |
| SumScraper.CutAtCaretMarker | sourcing/SumScraper.py:131 | The result is a prefix with no caret marker (`^`, optional whitespace, newline). When the cut is shorter than the text, a caret marker starts right where it stops. |
| SumScraper.CleanText | sourcing/SumScraper.py:129-133 | Remove the `[edit]` artifacts and collapse the newline runs. The cleaned text is what precedes the first caret marker of that text (all of it when there is none), with the whitespace around it stripped. It has no blank line and no caret marker. |
| SumScraper.StrippedBeforeMarkerUnique | sourcing/SumScraper.py:131-133 | Only one text is the stripped part before the first caret marker, so `CleanText`'s contract determines its result. |
| SumScraper.CleanFixed | sourcing/SumScraper.py:129-133 | A text with no `[edit]` artifact, newline run or caret, and no surrounding whitespace, is its own cleaning. |
| SumScraper.CleanTextNotIdempotent | sourcing/SumScraper.py:129-133 | `"[\n\nedit\n]"` cleans to `"[\nedit\n]"`, which cleans to `""`. |
| SumScraper.WikidataTitle | sourcing/SumScraper.py:56-64 | A title comes back if and only if the reply holds an entity with an `enwiki` link. It is the link of the first such entity. |
| SumScraper.WikidataHitSkipsSearch | sourcing/SumScraper.py:22-29 | When the IMDb id resolves through Wikidata, that title is used. Replacing the search service changes nothing. |
| SumScraper.SearchFallback | sourcing/SumScraper.py:66-79 | Without an IMDb id, or without a Wikidata title, the title is the first search hit. The query is `title + " " + director` when a director is given, else the title alone. The Wikidata service then does not matter. |
| SumScraper.FetchSectionContentSpec | sourcing/SumScraper.py:99-117 | The details map has an entry for heading `h` exactly when some section with that heading was fetched. Its value is the cleaned text of the last such section, so unfetched sections are omitted and a repeated heading keeps the last text. |
| SumScraper.DetailKeysAreHeadings | sourcing/SumScraper.py:101-117 | Every key of the details map is the heading of one of the given sections. |
| SumScraper.PageResultShape | sourcing/SumScraper.py:31-45 | Once the page is settled, the result is the single-key error record exactly when a stage comes up empty. The stages run in the order page, sections, relevant sections, details. The record carries the message of the first stage that fails, naming the movie title for a missing page and the page title after that. Otherwise the result is the details: a non-empty map of distinct relevant headings. |
| SumScraper.SummaryResultShape | sourcing/SumScraper.py:10-45 | `get_wikipedia_summary` gives the error record exactly when the pipeline fails at some stage, with the message of the first failing stage for the resolved page. Otherwise it gives a non-empty map with distinct keys, each a relevant heading and never `"error"`. |
| SumScraper.ErrorIsNotRelevant | sourcing/SumScraper.py:96 | `"error"` contains none of the keywords, so a details map cannot be mistaken for the error record. |
| ScriptScraper.PdfToText | sourcing/ScriptScraper.py:18-28 | An unopenable document gives `""`. Otherwise the result is the text of the pages before the first failing one. That is a prefix of the whole text, and the whole text when every page reads. |
| ScriptScraper.ConcatPrefix | sourcing/ScriptScraper.py:22-24 | The text of the first `k` pages is a prefix of the text of all pages. |
| ScriptScraper.ReadPdf | sourcing/ScriptScraper.py:190-197 | Reading succeeds if and only if the document opens and every page yields text. Its text is then the pages' texts in order. |
| ScriptScraper.FetchPdfScript | sourcing/ScriptScraper.py:175-201 | A raising request or reader gives the PDF error string. A non-200 status gives the "Failed to fetch PDF script" string with the URL and status. Otherwise the result is the stripped text. |
| ScriptScraper.FetchHtmlScript | sourcing/ScriptScraper.py:151-173 | A raising request gives the HTML error string. A non-200 status gives the "Failed to fetch script" string. Otherwise the result is the stripped page text. |
| ScriptScraper.MovieLink | sourcing/ScriptScraper.py:50-58 | There is no link if and only if no anchor with an `href` has text containing the title, case-insensitively. Otherwise the link is the first such anchor's `href` joined to the site URL. |
| ScriptScraper.SfyNoTitleMatch | sourcing/ScriptScraper.py:57-58 | When no anchor matches the title, `sfy_get` returns `None`. |
| ScriptScraper.Verified | sourcing/ScriptScraper.py:68-70 | The page verifies if and only if its first anchor with the exact IMDb-info text has an `href` containing the id. |
| ScriptScraper.VerifiedBySubstring | sourcing/ScriptScraper.py:69 | Verification is by substring: a page that verifies an id also verifies every id contained in it. |
| ScriptScraper.SfyUnverifiedIsNone | sourcing/ScriptScraper.py:67-70 | An unverified page gives `None`, whatever its text. |
| ScriptScraper.SfyPdfBeforeMarker | sourcing/ScriptScraper.py:72-92 | When the page has a PDF link, the marker text is never consulted. |
| ScriptScraper.SfyPdfHead | sourcing/ScriptScraper.py:73-84 | The HEAD request goes to the `href` when it starts with "http", else to the `href` joined to the site URL. A raising HEAD gives the error message and a 404 gives `None`. Any other status gives the PDF script fetched from that same URL. |
| ScriptScraper.SfyNoneIff | sourcing/ScriptScraper.py:41-94 | `sfy_get` gives `None` exactly when the scripts page comes back with 200 and then either no anchor names the title, or the movie page comes back with 200 and does not verify, or its PDF link answers HEAD with 404, or it has neither a PDF link nor the marker. |
| ScriptScraper.SfyMessages | sourcing/ScriptScraper.py:43-63 | An exception while fetching the scripts page or the movie page gives "An error occurred: " and the exception text. A status other than 200 gives the matching "Failed to fetch" message with the status, and for the movie page its URL. |
| ScriptScraper.MarkerSegmentSpec | sourcing/ScriptScraper.py:86-92 | The fallback is `None` if and only if the marker is absent. Otherwise it is the stripped text between the first and the second marker, or to the end of the text. |
| ScriptScraper.IdPart | sourcing/ScriptScraper.py:129 | The id is the longest prefix of the part with no `/` and no `?`: it stops at the end or right before the first `/` or `?`. |
| PyStr.TextAfterLastUnique | sourcing/ScriptScraper.py:122-124 | For a separator that cannot overlap itself, only one text ends the string, holds no separator and directly follows one (or is the whole string when there is none). That is the last piece of `split(sep)`. |
| ScriptScraper.ExtractImdbIdAsWritten | sourcing/ScriptScraper.py:119-129 | An id is extracted if and only if the `href` has one of the two IMDb shapes. For `imdb.com/title/` it is the text after the last `imdb.com/title/tt`, and otherwise the text after the last `imdb.com/Title?`. Either text is cut at its first `/` or `?`. |
| ScriptScraper.TitleIdIsCutTailAsWritten | sourcing/ScriptScraper.py:121-129 | As written, a `title/` link of any form yields the text after its last `imdb.com/title/tt`, cut at the first `/` or `?`. |
| ScriptScraper.AsWrittenDropsTt | sourcing/ScriptScraper.py:121-132 | For a canonical title link the extraction as written yields the digits without `tt`, never the full `tt…` id. |
| ScriptScraper.ExtractImdbId | sourcing/ScriptScraper.py:119-129 | The corrected extraction has the same shape conditions. For `imdb.com/title/` it takes the text after the last `imdb.com/title/`, so the `tt` stays. |
| ScriptScraper.TitleIdIsCutTail | sourcing/ScriptScraper.py:121-129 | The corrected extraction yields, for any `title/` link, the text after its last `imdb.com/title/`, cut at the first `/` or `?`. |
| ScriptScraper.QueryIdIsCutTail | sourcing/ScriptScraper.py:123-129 | A `Title?` link without the `title/` shape gets the same id from both extractions: the text after its last `imdb.com/Title?`, cut at the first `/` or `?`. |
| ScriptScraper.ExtractCanonical | sourcing/ScriptScraper.py:119-132 | The corrected extraction gives back the full id from a canonical title link. |
| ScriptScraper.SiblingHref | sourcing/ScriptScraper.py:134-139 | The script link is the `href` of the first other anchor under the same parent with a non-empty `href`, and there is none exactly when no such anchor exists. |
| ScriptScraper.LocateScript | sourcing/ScriptScraper.py:117-145 | The listing page leads to the neighbour of the first anchor whose extracted id matches and which has a neighbour. A match without a neighbour lets the scan go on. |
| ScriptScraper.FetchScript | sourcing/ScriptScraper.py:141-145 | The URL is the site URL followed by the `href`. An `href` ending in a dot and p, d, f, each letter in either case, goes to the PDF fetcher and anything else to the HTML fetcher. |
| ScriptScraper.PdfSuffixLower | sourcing/ScriptScraper.py:142 | `href.lower().endswith('.pdf')` holds exactly when the `href` ends in a dot followed by p, d, f, each in either case. |
| ScriptScraper.DailyNoneIff | sourcing/ScriptScraper.py:108-146 | `None` comes back if and only if every listing page was fetched with status 200 and none held a candidate. |
| ScriptScraper.DailyFirstFailureStops | sourcing/ScriptScraper.py:106-148 | A first listing page that is not 200 ends the search with "Failed to fetch Daily Script page. Status code: " and the status. One that raises ends it with "An error occurred: " and the reason. No later page is consulted. |
| ScriptScraper.DailySkip | sourcing/ScriptScraper.py:108-146 | A listing page fetched with 200 and holding no candidate is passed over: the result is that of the search over the remaining pages. |
| ScriptScraper.DailySkipTo | sourcing/ScriptScraper.py:108-146 | When the first `i` listing pages were fetched with 200 and hold no candidate, the result is that of the search starting at page `i`. So a failure or a candidate on the second page decides the result as on the first. |
| ScriptScraper.DailyFirstPageWins | sourcing/ScriptScraper.py:108-145 | A candidate on the first listing page gives its neighbour's script. No later listing page is consulted. |
| GeminiAnalysis.BraceSlice | GeminiAnalysis.py:111-114 | The slice is a substring of the reply. No `}` appears in it except possibly as its last character, and a non-empty slice ends with `}`. |
| GeminiAnalysis.BraceSliceOrdered | GeminiAnalysis.py:111-114 | When the first `{` comes before the first `}`, the slice is exactly the text from one to the other, inclusive. |
| GeminiAnalysis.BraceSliceNoClose | GeminiAnalysis.py:112-114 | Without a `}` the slice is empty. |
| GeminiAnalysis.BraceSliceReversed | GeminiAnalysis.py:111-114 | When the first `}` precedes the first `{`, the slice is empty. |
| GeminiAnalysis.BraceSliceNoOpen | GeminiAnalysis.py:111-114 | Without a `{` the slice is empty or `"}"`, and it is `"}"` exactly when the first `}` is the last character. |
| GeminiAnalysis.BraceSliceOneClose | GeminiAnalysis.py:112-114 | The slice holds at most one `}`. |
| GeminiAnalysis.RunAnalysisSeesSliceOnly | GeminiAnalysis.py:116-122 | The decoder sees only the slice: two replies with the same slice get the same answer. |
| GeminiAnalysis.NestedSlice | GeminiAnalysis.py:111-122 | A reply `{a{b}c}` with no braces in `a` and `b` is cut to `{a{b}`, after the inner `}`. |
| GeminiAnalysis.NestedObjectIsCut | GeminiAnalysis.py:111-122 | A nested object `{a{b}c}` is cut to `{a{b}`, and the analysis returns `None`. This holds when `a` and `b` have no braces and no backslashes, and `a` holds an even number of `"`, as quoted keys and values do. The cut text has two `{` outside string literals and at most one `}`, so a JSON decoder rejects it, even though the whole reply may be a valid object. |
| GeminiAnalysis.NestedReplyRejected | GeminiAnalysis.py:111-122 | The valid JSON reply `{"k":{"x":1}}` gives `None`: its nested object is cut before decoding. |
| GeminiAnalysis.FlatObjectIsKept | GeminiAnalysis.py:111-122 | A reply holding one flat object `{b}`, with no braces in the text before it or in `b`, hands exactly `{b}` to the decoder, whatever follows it. |
| GeminiAnalysis.FillContents | GeminiAnalysis.py:88-103 | Any prompt of this shape holds the title at two distinct places, and the summary and the script each at two non-overlapping places. |
| GeminiAnalysis.PromptContents | GeminiAnalysis.py:88-103 | The user prompt names the title twice. It carries the summary and the script twice each, once in the body and once in the re-check instruction. |
| App.OffsetWindows | app.py:19-21 | Page 1 starts at row 0 and each page starts 21 rows after the previous one. Windows of different pages do not overlap, and the page number can be read back from the offset. |
| App.GroupByCategory | app.py:43-47 | The keys are the categories in order of first appearance, each mapped to its names in row order. No list is empty and the lists hold as many names as there are rows. |
| App.PlaceholdersSpec | app.py:168 | With no selection the list is `''`. Otherwise it alternates `?` and `,`, with one `?` per selected trigger. |
| App.PickDirector | app.py:151 | The name of the first crew member whose job is "Director", or "Unknown" when there is none. |
| App.LookUp | app.py:61-83 | An id gives at most one movie. It gives one exactly when the id is non-empty, the find request returns results and the details request for the first result succeeds. That movie is the details reply with `imdb_id` set to the id. Every other field is unchanged, and the key order is kept (`imdb_id` is appended when new). |
| App.GetTmdbData | app.py:53-88 | There is one movie per id TMDB knows, in input order. An id is known when it is non-empty, the find reply is 200 with a result, and the details reply is 200. Movie `k` is the lookup of the `k`-th known id: TMDB's details reply for its first find result, stamped with that id. So the stamped ids are exactly the known ids. These are the non-empty input ids with some left out, and there are never more movies than ids. |
| PyStr.StripIsTrimmed | sourcing/SumScraper.py:133 | `strip` leaves a slice with only whitespace around it and no whitespace at either end, and it is the only string that does. |

## Left out

- HTTP traffic:
  - In `ScriptScraper`, GET and HEAD are function parameters that either raise or return a status and a parsed page.
  - A status code is an input and not a network event.
  - Exceptions other than those from the modelled calls are not modelled.
  - In `SumScraper` and `App` the requests cannot raise. The `Wiki` and `Tmdb` parameters return a reply or `None`. In the code, an exception from `requests.get` or `.json()` propagates out of `get_wikipedia_summary` (sourcing/SumScraper.py:56, 75, 89, 113) and `get_tmdb_data` (app.py:67, 79), because neither has a `try`. The model always returns a record or a list.
- Parsing:
  - BeautifulSoup parsing, `get_text` and removing the `<sup class="reference">` footnotes are left out; a page is its anchors and its text.
  - An anchor records only its direct parent, so `find_all` on a parent's deeper descendants is not distinguished.
  - Tag equality in the sibling test is equality of the modelled anchor (text, `href`, parent).
  - An anchor has one text. It stands both for BeautifulSoup's `.string`, which the `text=` filter at sourcing/ScriptScraper.py:68 compares, and for `get_text()`, which `link.text` at line 53 reads. An anchor with child tags, whose `.string` is `None`, is not distinguished.
- PDF libraries:
  - PyMuPDF and PyPDF2 are left out.
  - A document either fails to open or is a list of pages, each of which yields text or raises.
  - `pdf_to_text` prints its error message; the print is not modelled.
- `urljoin`: a parameter, since its RFC 3986 resolution rules belong to the standard library.
- JSON:
  - `json.loads` is a parameter. `GeminiAnalysis.NestedObjectIsCut` assumes only one thing about it. Take text with no backslash and count the braces outside its `"…"` string literals. If there are more `{` than `}`, the decoder rejects the text.
  - Only decode errors are caught by the source; other exceptions are not modelled.
  - TMDB replies are modelled as string-valued maps and their numeric movie ids as integers.
- The few-shot system prompt, the Gemini client, model name and configuration, environment variables and `print` logging are left out.
- Flask routing, templates, sqlite, and SQL `LIKE`/`LIMIT`/`OFFSET` semantics are left out.
  - `App.Offset` takes the page number as an integer; `int()` parsing of the query string is not modelled.
  - `get_all_triggers` receives the rows already sorted by the database.
- Characters:
  - `str.lower` is ASCII lower-casing.
  - Whitespace is the ASCII set that `str.isspace` and regex `\s` accept; Unicode whitespace and case folding are left out.
- `get_tmdb_data` takes the ids as optional strings. A `None` id and an empty id are both skipped, as Python truthiness does. A falsy non-string id from the database is not modelled.
- GeminiAnalysis.NestedObjectIsCut: does not cover text with escape sequences (a backslash in `a` or `b`), because escaped quotes change where a string literal ends. It also does not cover an `a` with an odd number of `"`, where the inner `{` lies inside a string literal.
- GeminiAnalysis.RunAnalysis: no contract of its own; it returns the decoder's answer on the slice, and its properties are stated by `GeminiAnalysis.RunAnalysisSeesSliceOnly` and `GeminiAnalysis.NestedObjectIsCut`.
- SumScraper.SearchQuery: no contract of its own; the query form is stated by `SumScraper.SearchFallback`.
- ScriptScraper.SfyGet: no contract of its own. `ScriptScraper.SfyNoneIff` states when it returns `None`, and `ScriptScraper.SfyMessages` its error messages. `ScriptScraper.SfyPdfHead` covers the PDF path and `ScriptScraper.MarkerSegmentSpec` the marker fallback.
- ScriptScraper.DailyScriptGet: no contract of its own; it is `DailyFrom` over the two listing pages with the corrected extractor, and the `Daily…` lemmas state its behaviour for any list of listing pages.

## Findings

| source | as written | input that shows it | evidently intended | confidence | as-written member | corrected member |
|---|---|---|---|---|---|---|
| sourcing/ScriptScraper.py:121-132 | When the `href` contains `imdb.com/title/`, the part is taken after `imdb.com/title/tt`, so the extracted id of a canonical title link lacks its `tt` prefix and never equals an id of the documented form. The `imdb.com/Title?` shape (lines 123-124) also gives only what follows `Title?`. For an old-style link like `imdb.com/Title?0298203`, that is the digits without `tt`. Both extractors keep this branch as written (`ScriptScraper.QueryIdIsCutTail`), since the intended id for it is not documented. | `href` `https://www.imdb.com/title/tt0298203/` with id `tt0298203`: the extraction gives `0298203`. | Take the part after `imdb.com/title/`, so a canonical link yields `tt0298203`. | not executed | ScriptScraper.ExtractImdbIdAsWritten (lemma ScriptScraper.AsWrittenDropsTt; used by ScriptScraper.DailyScriptGetAsWritten) | ScriptScraper.ExtractImdbId (lemma ScriptScraper.ExtractCanonical; used by ScriptScraper.DailyScriptGet) |

=== FILE: app.dfy ===
/**
 * The pure helpers of the web layer: pagination offsets, the grouping of
 * trigger definitions by category, the SQL placeholder list, the director
 * pick and the TMDB lookup loop. The database and TMDB are parameters.
 */
module App {
  import opened Wrappers
  import opened PyStr
  import opened Dicts
  import Seqs

  // ---------------------------------------------------------------------------
  // Pagination
  // ---------------------------------------------------------------------------

  /** The number of movies per page. */
  const PageSize := 21

  /** The SQL `OFFSET` for a (1-based) page number. */
  function Offset(page: int): int {
    (page - 1) * PageSize
  }

  /**
   * Page 1 starts at row 0, and each page starts where the previous one
   * ends, so the pages tile the rows without gaps or overlaps; the page
   * number can be read back from its offset.
   */
  lemma OffsetWindows(p: int, q: int)
    ensures Offset(1) == 0
    ensures Offset(p + 1) == Offset(p) + PageSize
    ensures p < q ==> Offset(p) + PageSize <= Offset(q)
    ensures Offset(p) / PageSize + 1 == p
    ensures Offset(p) % PageSize == 0
  {
    if p < q {
      assert Offset(q) - Offset(p) == (q - p) * PageSize;
    }
  }

  // ---------------------------------------------------------------------------
  // Grouping trigger definitions
  // ---------------------------------------------------------------------------

  /** A `(category, name)` row of `trigger_definitions`. */
  type Row = (string, string)

  /** Reference: the names in the rows of category `c`, in row order. */
  function NamesOf(rows: seq<Row>, c: string): seq<string>
    decreases |rows|
  {
    if |rows| == 0 then []
    else
      var n := |rows| - 1;
      NamesOf(rows[..n], c) + (if rows[n].0 == c then [rows[n].1] else [])
  }

  /** Reference: the categories in order of first appearance. */
  function CategoriesOf(rows: seq<Row>): seq<string>
    decreases |rows|
  {
    if |rows| == 0 then []
    else
      var n := |rows| - 1;
      var before := CategoriesOf(rows[..n]);
      if rows[n].0 in before then before else before + [rows[n].0]
  }

  /** The number of names across all categories. */
  function Total(d: Dict<string, seq<string>>): nat {
    if |d| == 0 then 0 else |d[0].1| + Total(d[1..])
  }

  /** Assigning `v` to `k` changes the total by the difference in list lengths. */
  lemma {:induction false} PutTotal(d: Dict<string, seq<string>>, k: string, v: seq<string>)
    ensures Total(Put(d, k, v)) + |Get(d, k).GetOr([])| == Total(d) + |v|
  {
    if |d| > 0 && d[0].0 != k {
      PutTotal(d[1..], k, v);
      assert Put(d, k, v)[1..] == Put(d[1..], k, v);
    } else if |d| > 0 {
      assert Put(d, k, v)[1..] == d[1..];
    }
  }

  /** The categories are never repeated. */
  lemma {:induction false} CategoriesDistinct(rows: seq<Row>)
    ensures forall i, j :: 0 <= i < j < |CategoriesOf(rows)| ==> CategoriesOf(rows)[i] != CategoriesOf(rows)[j]
    ensures forall c :: c in CategoriesOf(rows) <==> exists k :: 0 <= k < |rows| && rows[k].0 == c
    decreases |rows|
  {
    if |rows| > 0 {
      var n := |rows| - 1;
      CategoriesDistinct(rows[..n]);
      assert forall k :: 0 <= k < n ==> rows[..n][k] == rows[k];
    }
  }

  /** A category that occurs has a non-empty list of names. */
  lemma {:induction false} NamesNonEmpty(rows: seq<Row>, c: string)
    ensures c in CategoriesOf(rows) <==> |NamesOf(rows, c)| > 0
    decreases |rows|
  {
    if |rows| > 0 {
      NamesNonEmpty(rows[..|rows| - 1], c);
    }
  }

  /** The loop invariant of `GroupByCategory` after the first `i` rows. */
  ghost predicate GroupedUpTo(g: Dict<string, seq<string>>, rows: seq<Row>, i: nat)
    requires i <= |rows|
  {
    && UniqueKeys(g)
    && Keys(g) == CategoriesOf(rows[..i])
    && (forall c :: Get(g, c) == if c in Keys(g) then Some(NamesOf(rows[..i], c)) else None)
    && Total(g) == i
  }

  /** One more row keeps the invariant. */
  lemma GroupStep(g: Dict<string, seq<string>>, rows: seq<Row>, i: nat)
    requires i < |rows|
    requires GroupedUpTo(g, rows, i)
    ensures GroupedUpTo(Put(g, rows[i].0, Get(g, rows[i].0).GetOr([]) + [rows[i].1]), rows, i + 1)
  {
    var category := rows[i].0;
    var v := Get(g, category).GetOr([]) + [rows[i].1];
    var g' := Put(g, category, v);
    assert Keys(g') == CategoriesOf(rows[..i + 1]) by {
      assert rows[..i + 1][..i] == rows[..i];
      PutKeys(g, category, v);
    }
    assert UniqueKeys(g') by {
      PutUnique(g, category, v);
    }
    assert Total(g') == i + 1 by {
      PutTotal(g, category, v);
    }
    forall c
      ensures Get(g', c) == if c in Keys(g') then Some(NamesOf(rows[..i + 1], c)) else None
    {
      GroupStepAt(g, rows, i, c);
    }
  }

  /** `GroupStep` for the entry of one category. */
  lemma GroupStepAt(g: Dict<string, seq<string>>, rows: seq<Row>, i: nat, c: string)
    requires i < |rows|
    requires Keys(g) == CategoriesOf(rows[..i])
    requires Get(g, c) == if c in Keys(g) then Some(NamesOf(rows[..i], c)) else None
    requires Get(g, rows[i].0) == if rows[i].0 in Keys(g) then Some(NamesOf(rows[..i], rows[i].0)) else None
    ensures var g' := Put(g, rows[i].0, Get(g, rows[i].0).GetOr([]) + [rows[i].1]);
            Get(g', c) == if c in Keys(g') then Some(NamesOf(rows[..i + 1], c)) else None
  {
    var (category, name) := rows[i];
    var v := Get(g, category).GetOr([]) + [name];
    var g' := Put(g, category, v);
    var pre := rows[..i + 1];
    assert pre[..i] == rows[..i];
    PutKeys(g, category, v);
    assert NamesOf(pre, c) == NamesOf(rows[..i], c) + (if category == c then [name] else []);
    if c == category {
      NamesNonEmpty(rows[..i], c);
      assert c in Keys(g');
      assert Get(g', c) == Some(v);
      if c !in Keys(g) {
        assert NamesOf(rows[..i], c) == [];
      }
    } else {
      assert Get(g', c) == Get(g, c);
      assert c in Keys(g') <==> c in Keys(g);
      assert NamesOf(pre, c) == NamesOf(rows[..i], c);
    }
  }

  /**
   * `get_all_triggers`: for each row, create the category's list when the
   * category is new, then append the name. The result maps the categories,
   * in order of first appearance, to their names in row order; no list is
   * empty, and the lists hold as many names as there are rows.
   */
  method GroupByCategory(rows: seq<Row>) returns (grouped: Dict<string, seq<string>>)
    ensures Keys(grouped) == CategoriesOf(rows)
    ensures forall c :: c in Keys(grouped) ==> Get(grouped, c) == Some(NamesOf(rows, c))
    ensures forall c :: c in Keys(grouped) ==> |Get(grouped, c).value| > 0
    ensures Total(grouped) == |rows|
    ensures UniqueKeys(grouped)
  {
    grouped := [];
    var i := 0;
    while i < |rows|
      invariant 0 <= i <= |rows|
      invariant GroupedUpTo(grouped, rows, i)
    {
      var (category, name) := rows[i];
      GroupStep(grouped, rows, i);
      grouped := Put(grouped, category, Get(grouped, category).GetOr([]) + [name]);
      i := i + 1;
    }
    assert rows[..i] == rows;
    forall c | c in Keys(grouped)
      ensures |Get(grouped, c).value| > 0
    {
      NamesNonEmpty(rows, c);
    }
  }

  // ---------------------------------------------------------------------------
  // Movie details
  // ---------------------------------------------------------------------------

  /** `n` copies of `"?"`, the generator in the placeholder expression. */
  function Marks(n: nat): (r: seq<string>)
    ensures |r| == n
    ensures forall i :: 0 <= i < n ==> r[i] == "?"
  {
    if n == 0 then [] else Marks(n - 1) + ["?"]
  }

  /** `",".join("?" for _ in selected) or "''"`. */
  function Placeholders(selected: seq<string>): string {
    var joined := Join(Marks(|selected|), ",");
    if joined == "" then "''" else joined
  }

  /** `n` question marks joined by commas alternate `?` and `,`. */
  lemma {:induction false} JoinMarks(n: nat)
    requires n > 0
    ensures var r := Join(Marks(n), ",");
            && |r| == 2 * n - 1
            && forall i :: 0 <= i < |r| ==> r[i] == if i % 2 == 0 then '?' else ','
    decreases n
  {
    var ms := Marks(n);
    if n > 1 {
      assert ms[1..] == Marks(n - 1);
      JoinMarks(n - 1);
      var t := Join(ms[1..], ",");
      var r := Join(ms, ",");
      assert r == "?," + t;
      forall i | 0 <= i < |r|
        ensures r[i] == if i % 2 == 0 then '?' else ','
      {
        if i >= 2 {
          assert r[i] == t[i - 2];
        }
      }
    } else {
      assert ms == ["?"];
    }
  }

  /**
   * The placeholder list is `''` when nothing is selected, and otherwise
   * one `?` per selected trigger separated by commas, so the query binds
   * exactly one parameter per selected trigger.
   */
  lemma PlaceholdersSpec(selected: seq<string>)
    ensures |selected| == 0 ==> Placeholders(selected) == "''"
    ensures |selected| > 0 ==>
              var r := Placeholders(selected);
              && |r| == 2 * |selected| - 1
              && (forall i :: 0 <= i < |r| ==> r[i] == if i % 2 == 0 then '?' else ',')
              && CountChar(r, '?') == |selected|
  {
    if |selected| > 0 {
      var n := |selected|;
      JoinMarks(n);
      AlternatingCount(Join(Marks(n), ","), n);
    }
  }

  /** An alternating `?,?,…,?` of `n` marks counts `n` question marks. */
  lemma {:induction false} AlternatingCount(r: string, n: nat)
    requires n > 0 && |r| == 2 * n - 1
    requires forall i :: 0 <= i < |r| ==> r[i] == if i % 2 == 0 then '?' else ','
    ensures CountChar(r, '?') == n
    decreases n
  {
    if n > 1 {
      var r' := r[..|r| - 2];
      AlternatingCount(r', n - 1);
      assert r[..|r| - 1][..|r| - 2] == r';
    } else {
      assert r == "?";
    }
  }

  /** A member of the film crew. */
  datatype CrewMember = CrewMember(name: string, job: string)

  predicate IsDirector(m: CrewMember) {
    m.job == "Director"
  }

  /** `next((m["name"] for m in crew if m["job"] == "Director"), "Unknown")`. */
  function PickDirector(crew: seq<CrewMember>): (r: string)
    ensures (forall k :: 0 <= k < |crew| ==> !IsDirector(crew[k])) ==> r == "Unknown"
    ensures (exists k :: 0 <= k < |crew| && IsDirector(crew[k])) ==>
              exists k :: 0 <= k < |crew| && IsDirector(crew[k])
                && (forall j :: 0 <= j < k ==> !IsDirector(crew[j]))
                && r == crew[k].name
  {
    var k := Seqs.First(crew, IsDirector);
    if k == -1 then "Unknown" else crew[k].name
  }

  // ---------------------------------------------------------------------------
  // TMDB lookup
  // ---------------------------------------------------------------------------

  /** A movie as TMDB's details reply gives it: field name to value. */
  type Movie = Dict<string, string>

  /**
   * The two TMDB requests: `find(id)` gives the `movie_results` ids (`None`
   * for a non-200 status), `details(movieId)` the movie (`None` for a non-200
   * status).
   */
  datatype Tmdb = Tmdb(find: string -> Option<seq<int>>, details: int -> Option<Movie>)

  /** One iteration of the loop in `get_tmdb_data`. */
  function LookUp(id: Option<string>, tmdb: Tmdb): (r: seq<Movie>)
    ensures |r| <= 1
    ensures |r| == 1 <==> && Truthy(id)
                          && tmdb.find(id.value).Some? && |tmdb.find(id.value).value| > 0
                          && tmdb.details(tmdb.find(id.value).value[0]).Some?
    ensures |r| == 1 ==> Truthy(id) && Get(r[0], "imdb_id") == Some(id.value)
    ensures |r| == 1 ==>
              var movie := tmdb.details(tmdb.find(id.value).value[0]).value;
              && (forall k :: k != "imdb_id" ==> Get(r[0], k) == Get(movie, k))
              && ("imdb_id" in Keys(movie) ==> Keys(r[0]) == Keys(movie))
              && ("imdb_id" !in Keys(movie) ==> Keys(r[0]) == Keys(movie) + ["imdb_id"])
  {
    if !Truthy(id) then []
    else
      match tmdb.find(id.value)
      case None => []
      case Some(results) =>
        if |results| == 0 then []
        else
          match tmdb.details(results[0])
          case None => []
          case Some(movie) =>
            PutKeys(movie, "imdb_id", id.value);
            [Put(movie, "imdb_id", id.value)]
  }

  /** The non-empty ids, in order. */
  function TruthyIds(ids: seq<Option<string>>): seq<string> {
    if |ids| == 0 then []
    else (if Truthy(ids[0]) then [ids[0].value] else []) + TruthyIds(ids[1..])
  }

  /** The `imdb_id` stamped on each movie. */
  function StampedIds(movies: seq<Movie>): seq<string> {
    if |movies| == 0 then []
    else [Get(movies[0], "imdb_id").GetOr("")] + StampedIds(movies[1..])
  }

  /**
   * TMDB knows the movie: the id is non-empty, the find request is 200 with
   * a result, and the details request for the first result is 200.
   */
  predicate Found(id: Option<string>, tmdb: Tmdb) {
    && Truthy(id)
    && tmdb.find(id.value).Some?
    && |tmdb.find(id.value).value| > 0
    && tmdb.details(tmdb.find(id.value).value[0]).Some?
  }

  /** The ids TMDB knows, in order. */
  function FoundIds(ids: seq<Option<string>>, tmdb: Tmdb): seq<string> {
    if |ids| == 0 then []
    else (if Found(ids[0], tmdb) then [ids[0].value] else []) + FoundIds(ids[1..], tmdb)
  }

  /**
   * `get_tmdb_data`: falsy ids are skipped; a movie is kept exactly when the
   * find request is 200 with a result and the details request is 200. The ids
   * stamped on the movies are the ids TMDB knows, in order, each once per
   * occurrence; so they are the looked-up ids with some left out, and there
   * are never more movies than ids.
   */
  function GetTmdbData(ids: seq<Option<string>>, tmdb: Tmdb): (movies: seq<Movie>)
    ensures |movies| <= |ids|
    ensures StampedIds(movies) == FoundIds(ids, tmdb)
    ensures Seqs.IsSubseq(StampedIds(movies), TruthyIds(ids))
    ensures |movies| == |FoundIds(ids, tmdb)|
    ensures forall k :: 0 <= k < |movies| ==> [movies[k]] == LookUp(Some(FoundIds(ids, tmdb)[k]), tmdb)
  {
    if |ids| == 0 then []
    else
      var m := LookUp(ids[0], tmdb);
      var rest := GetTmdbData(ids[1..], tmdb);
      SubseqStep(m, rest, ids);
      FoundStep(m, rest, ids, tmdb);
      LookUpStep(m, rest, ids, tmdb);
      m + rest
  }

  /** The induction step of `GetTmdbData`'s claim that each movie is the lookup of its found id. */
  lemma LookUpStep(m: seq<Movie>, rest: seq<Movie>, ids: seq<Option<string>>, tmdb: Tmdb)
    requires |ids| > 0 && m == LookUp(ids[0], tmdb)
    requires |rest| == |FoundIds(ids[1..], tmdb)|
    requires forall k :: 0 <= k < |rest| ==> [rest[k]] == LookUp(Some(FoundIds(ids[1..], tmdb)[k]), tmdb)
    ensures |m + rest| == |FoundIds(ids, tmdb)|
    ensures forall k :: 0 <= k < |m + rest| ==> [(m + rest)[k]] == LookUp(Some(FoundIds(ids, tmdb)[k]), tmdb)
  {
    var found := FoundIds(ids, tmdb);
    var tail := FoundIds(ids[1..], tmdb);
    if Found(ids[0], tmdb) {
      assert found == [ids[0].value] + tail;
      assert ids[0] == Some(ids[0].value);
      forall k | 0 < k < |m + rest|
        ensures [(m + rest)[k]] == LookUp(Some(found[k]), tmdb)
      {
        assert (m + rest)[k] == rest[k - 1];
        assert found[k] == tail[k - 1];
      }
    } else {
      assert found == tail;
      assert m + rest == rest;
    }
  }

  /** The induction step of `GetTmdbData`'s claim about the found ids. */
  lemma FoundStep(m: seq<Movie>, rest: seq<Movie>, ids: seq<Option<string>>, tmdb: Tmdb)
    requires |ids| > 0 && m == LookUp(ids[0], tmdb)
    requires StampedIds(rest) == FoundIds(ids[1..], tmdb)
    ensures StampedIds(m + rest) == FoundIds(ids, tmdb)
  {
    if |m| == 1 {
      assert (m + rest)[1..] == rest;
    } else {
      assert m + rest == rest;
    }
  }

  /** The induction step of `GetTmdbData`'s subsequence claim. */
  lemma SubseqStep(m: seq<Movie>, rest: seq<Movie>, ids: seq<Option<string>>)
    requires |ids| > 0 && |m| <= 1
    requires |m| == 1 ==> Truthy(ids[0]) && Get(m[0], "imdb_id") == Some(ids[0].value)
    requires Seqs.IsSubseq(StampedIds(rest), TruthyIds(ids[1..]))
    ensures Seqs.IsSubseq(StampedIds(m + rest), TruthyIds(ids))
  {
    var tail := TruthyIds(ids[1..]);
    var stamped := StampedIds(rest);
    if |m| == 1 {
      var x := ids[0].value;
      assert (m + rest)[1..] == rest;
      assert StampedIds(m + rest) == [x] + stamped;
      assert TruthyIds(ids) == [x] + tail;
      assert ([x] + stamped)[1..] == stamped;
      assert ([x] + tail)[1..] == tail;
    } else {
      assert m + rest == rest;
      if Truthy(ids[0]) {
        assert TruthyIds(ids) == [ids[0].value] + tail;
        Seqs.IsSubseqCons(stamped, tail, ids[0].value);
      } else {
        assert TruthyIds(ids) == tail;
      }
    }
  }
}

=== FILE: dicts.dfy ===
/**
 * Python dictionaries with insertion order, as association lists. Assigning
 * to a key that is already present replaces its value in place; a new key is
 * appended at the end.
 */
module Dicts {
  import opened Wrappers

  type Dict<K, V> = seq<(K, V)>

  /** The keys in insertion order. */
  function Keys<K, V>(d: Dict<K, V>): (ks: seq<K>)
    ensures |ks| == |d|
    ensures forall i :: 0 <= i < |d| ==> ks[i] == d[i].0
  {
    if |d| == 0 then [] else [d[0].0] + Keys(d[1..])
  }

  /** No key occurs twice, which every dictionary built by `Put` keeps. */
  predicate UniqueKeys<K(==), V>(d: Dict<K, V>) {
    forall i, j :: 0 <= i < j < |d| ==> d[i].0 != d[j].0
  }

  /** `d[k]` if `k in d`, else nothing. */
  function Get<K(==), V>(d: Dict<K, V>, k: K): (r: Option<V>)
    ensures r.Some? <==> k in Keys(d)
    ensures r.Some? ==> (k, r.value) in d
  {
    if |d| == 0 then None
    else if d[0].0 == k then Some(d[0].1)
    else Get(d[1..], k)
  }

  /** `d[k] = v`. */
  function Put<K(==,!new), V>(d: Dict<K, V>, k: K, v: V): (r: Dict<K, V>)
    ensures Get(r, k) == Some(v)
    ensures forall k' :: k' != k ==> Get(r, k') == Get(d, k')
  {
    if |d| == 0 then [(k, v)]
    else if d[0].0 == k then
      var r := [(k, v)] + d[1..];
      assert r[1..] == d[1..];
      r
    else
      var rest := Put(d[1..], k, v);
      var r := [d[0]] + rest;
      assert r[1..] == rest;
      r
  }

  /** Assignment keeps the key order, appending a key that was not present. */
  lemma {:induction false} PutKeys<K(!new), V>(d: Dict<K, V>, k: K, v: V)
    ensures k in Keys(d) ==> Keys(Put(d, k, v)) == Keys(d)
    ensures k !in Keys(d) ==> Keys(Put(d, k, v)) == Keys(d) + [k]
  {
    if |d| > 0 && d[0].0 != k {
      PutKeys(d[1..], k, v);
    }
  }

  /** Assignment never introduces a duplicate key. */
  lemma PutUnique<K(!new), V>(d: Dict<K, V>, k: K, v: V)
    requires UniqueKeys(d)
    ensures UniqueKeys(Put(d, k, v))
  {
    var r := Put(d, k, v);
    var ks := Keys(r);
    PutKeys(d, k, v);
    assert forall i :: 0 <= i < |r| ==> r[i].0 == ks[i];
    if k in Keys(d) {
      assert Keys(r) == Keys(d);
    } else {
      assert Keys(r) == Keys(d) + [k];
    }
  }
}

=== FILE: gemini_analysis.dfy ===
/**
 * What `RunAnalysis` does around the model call: the user prompt it sends,
 * and how it cuts a JSON object out of the reply — from the first `{` to the
 * first `}`, by Python `find` and slice rules — before handing that to the
 * JSON decoder, which is a parameter here.
 */
module GeminiAnalysis {
  import opened Wrappers
  import opened PyStr

  // ---------------------------------------------------------------------------
  // The brace slice
  // ---------------------------------------------------------------------------

  /** `text[text.find('{') : text.find('}') + 1]`. */
  function BraceSlice(text: string): (r: string)
    ensures exists a :: 0 <= a <= |text| - |r| && OccursAt(text, r, a)
    ensures forall k :: 0 <= k < |r| - 1 ==> r[k] != '}'
    ensures r != [] ==> r[|r| - 1] == '}'
  {
    var i := Find(text, "{");
    var j := Find(text, "}");
    var r := Slice(text, i, j + 1);
    BraceSliceShape(text);
    r
  }

  /** The facts behind `BraceSlice`'s contract, stated on the slice bounds. */
  lemma BraceSliceShape(text: string)
    ensures var r := Slice(text, Find(text, "{"), Find(text, "}") + 1);
            && (exists a :: 0 <= a <= |text| - |r| && OccursAt(text, r, a))
            && (forall k :: 0 <= k < |r| - 1 ==> r[k] != '}')
            && (r != [] ==> r[|r| - 1] == '}')
  {
    var i := Find(text, "{");
    var j := Find(text, "}");
    var a, b := SliceIndex(i, |text|), SliceIndex(j + 1, |text|);
    var r := Slice(text, i, j + 1);
    FindSpec(text, "}");
    if a < b {
      assert r == text[a..b];
      assert OccursAt(text, r, a);
      assert j != -1 && b == j + 1;
      forall k | 0 <= k < |r| - 1
        ensures r[k] != '}'
      {
        assert r[k] == text[a + k];
        OccursChar(text, '}', a + k);
      }
      OccursChar(text, '}', j);
    } else {
      assert OccursAt(text, r, 0);
    }
  }

  /** When the first `{` comes before the first `}`, the slice is exactly the text from one to the other. */
  lemma BraceSliceOrdered(text: string)
    requires Find(text, "{") != -1 && Find(text, "}") != -1
    requires Find(text, "{") < Find(text, "}")
    ensures var i, j := Find(text, "{"), Find(text, "}");
            && BraceSlice(text) == text[i..j + 1]
            && BraceSlice(text)[0] == '{'
            && BraceSlice(text)[|BraceSlice(text)| - 1] == '}'
  {
    var i := Find(text, "{");
    OccursChar(text, '{', i);
  }

  /** Without a `}` the slice is empty. */
  lemma BraceSliceNoClose(text: string)
    requires !Contains(text, "}")
    ensures BraceSlice(text) == ""
  {
    FindSpec(text, "}");
  }

  /** When the first `}` comes before the first `{`, the slice is empty. */
  lemma BraceSliceReversed(text: string)
    requires Find(text, "{") != -1 && Find(text, "}") != -1
    requires Find(text, "}") < Find(text, "{")
    ensures BraceSlice(text) == ""
  {
  }

  /**
   * Without a `{`, `find` gives -1, which Python reads as the last index: the
   * slice is `"}"` when the first `}` is the last character, and empty otherwise.
   */
  lemma BraceSliceNoOpen(text: string)
    requires !Contains(text, "{")
    ensures BraceSlice(text) == "" || BraceSlice(text) == "}"
    ensures BraceSlice(text) == "}" <==> |text| > 0 && Find(text, "}") == |text| - 1
  {
    FindSpec(text, "{");
    FindSpec(text, "}");
    if |text| > 0 && Find(text, "}") == |text| - 1 {
      OccursChar(text, '}', |text| - 1);
      assert text[|text| - 1..|text|] == "}";
    }
  }

  /** A string whose only `}` may be its last character holds at most one `}`. */
  lemma {:induction false} AtMostOneClose(r: string)
    requires forall k :: 0 <= k < |r| - 1 ==> r[k] != '}'
    ensures CountChar(r, '}') <= 1
  {
    if |r| > 0 {
      NoCharCount(r[..|r| - 1], '}');
    }
  }

  /** The slice never holds more than one `}`. */
  lemma BraceSliceOneClose(text: string)
    ensures CountChar(BraceSlice(text), '}') <= 1
  {
    AtMostOneClose(BraceSlice(text));
  }

  // ---------------------------------------------------------------------------
  // Decoding
  // ---------------------------------------------------------------------------

  /**
   * The end of `RunAnalysis`: decode the slice; a decoding error gives
   * `None`, and a decoded value is returned as it is.
   */
  function RunAnalysis<T>(responseText: string, decode: string -> Option<T>): Option<T> {
    decode(BraceSlice(responseText))
  }

  /** The decoder only ever sees the slice: replies with the same slice get the same answer. */
  lemma RunAnalysisSeesSliceOnly<T>(a: string, b: string, decode: string -> Option<T>)
    requires BraceSlice(a) == BraceSlice(b)
    ensures RunAnalysis(a, decode) == RunAnalysis(b, decode)
  {
  }

  /**
   * Whether reading `s` from the front ends inside a `"…"` string literal,
   * given whether it starts inside one. Without backslashes in the text,
   * every `"` opens or closes a literal.
   */
  function InStringAfter(s: string, inString: bool): bool
    decreases |s|
  {
    if |s| == 0 then inString
    else InStringAfter(s[1..], if s[0] == '"' then !inString else inString)
  }

  /**
   * The occurrences of `c` that are structural: outside every `"…"` string
   * literal, reading from the front and starting inside a literal when
   * `inString` holds.
   */
  function Structural(s: string, c: char, inString: bool): nat
    decreases |s|
  {
    if |s| == 0 then 0
    else
      (if !inString && s[0] == c then 1 else 0)
      + Structural(s[1..], c, if s[0] == '"' then !inString else inString)
  }

  /**
   * A JSON decoder rejects text without escapes (no backslash) that has
   * more structural `{` than `}`: in a JSON text the braces outside string
   * literals pair up, and a brace inside a literal is an ordinary
   * character.
   */
  ghost predicate RejectsUnclosed<T>(decode: string -> Option<T>) {
    forall s :: '\\' !in s && Structural(s, '{', false) > Structural(s, '}', false) ==> decode(s).None?
  }

  /**
   * A reply holding a nested object, `{a{b}c}` with no braces in `a` and
   * `b`, is cut after the inner `}`.
   */
  lemma NestedSlice(a: string, b: string, c: string)
    requires forall k :: 0 <= k < |a| ==> a[k] != '{' && a[k] != '}'
    requires forall k :: 0 <= k < |b| ==> b[k] != '{' && b[k] != '}'
    ensures BraceSlice("{" + a + "{" + b + "}" + c + "}") == "{" + a + "{" + b + "}"
  {
    var cut := "{" + a + "{" + b + "}";
    var text := cut + c + "}";
    assert text == "{" + a + "{" + b + "}" + c + "}";
    assert OccursAt(text, "{", 0);
    FindAt(text, "{", 0);
    var j := |cut| - 1;
    assert text[j] == '}';
    OccursChar(text, '}', j);
    forall k | 0 <= k < j
      ensures !OccursAt(text, "}", k)
    {
      OccursChar(text, '}', k);
      if k == 0 {
      } else if k < 1 + |a| {
        assert text[k] == a[k - 1];
      } else if k == 1 + |a| {
      } else {
        assert text[k] == b[k - 2 - |a|];
      }
    }
    FindAt(text, "}", j);
    assert BraceSlice(text) == text[0..j + 1];
    assert text[0..j + 1] == cut;
  }

  /**
   * A nested object `{a{b}c}` whose keys and values before the inner
   * object are complete string literals (an even number of `"` in `a`),
   * with no braces in `a` and `b` and no escapes in either, is cut after
   * the inner `}`. The cut text has two structural `{` and at most one
   * structural `}`, so a JSON decoder rejects it and the analysis yields
   * `None`, though the whole reply may be a valid object such as
   * `{"k": 0, "n": {"x": 1}}`.
   */
  lemma NestedObjectIsCut<T>(a: string, b: string, c: string, decode: string -> Option<T>)
    requires forall k :: 0 <= k < |a| ==> a[k] != '{' && a[k] != '}'
    requires forall k :: 0 <= k < |b| ==> b[k] != '{' && b[k] != '}'
    requires '\\' !in a && '\\' !in b
    requires CountChar(a, '"') % 2 == 0
    requires RejectsUnclosed(decode)
    ensures BraceSlice("{" + a + "{" + b + "}" + c + "}") == "{" + a + "{" + b + "}"
    ensures RunAnalysis("{" + a + "{" + b + "}" + c + "}", decode) == None
  {
    NestedSlice(a, b, c);
    var cut := "{" + a + "{" + b + "}";
    StructuralPieces(a, b);
    assert '\\' !in cut;
  }

  /** A nested object, valid JSON as a whole, is cut and rejected. */
  lemma NestedReplyRejected<T>(decode: string -> Option<T>)
    requires RejectsUnclosed(decode)
    ensures RunAnalysis("{\"k\":{\"x\":1}}", decode) == None
  {
    var a := "\"k\":";
    var b := "\"x\":1";
    assert "{\"k\":{\"x\":1}}" == "{" + a + "{" + b + "}" + "" + "}";
    KeyQuotes();
    NestedObjectIsCut(a, b, "", decode);
  }

  /** The key `"k":` closes the literal it opens. */
  lemma KeyQuotes()
    ensures CountChar("\"k\":", '"') == 2
  {
    var a := "\"k\":";
    assert a[..1][..0] == [] && CountChar(a[..1], '"') == 1;
    assert a[..2][..1] == a[..1] && CountChar(a[..2], '"') == 1;
    assert a[..3][..2] == a[..2] && CountChar(a[..3], '"') == 2;
    assert a[..|a| - 1] == a[..3];
  }

  /** Structural brace counts of `{a{b}` for brace-free `a` and `b`, `a` closing its literals. */
  lemma StructuralPieces(a: string, b: string)
    requires forall k :: 0 <= k < |a| ==> a[k] != '{' && a[k] != '}'
    requires forall k :: 0 <= k < |b| ==> b[k] != '{' && b[k] != '}'
    requires CountChar(a, '"') % 2 == 0
    ensures Structural("{" + a + "{" + b + "}", '{', false) == 2
    ensures Structural("{" + a + "{" + b + "}", '}', false) <= 1
  {
    QuoteParity(a, false);
    var q1 := "{" + a;
    var q2 := q1 + "{";
    var q3 := q2 + b;
    assert InStringAfter("{", false) == false;
    StructuralAppend("{", a, '{', false);
    StructuralAppend("{", a, '}', false);
    NoStructural(a, '{', false);
    NoStructural(a, '}', false);
    StructuralAppend(q1, "{", '{', false);
    StructuralAppend(q1, "{", '}', false);
    var st := InStringAfter(q2, false);
    StructuralAppend(q2, b, '{', false);
    StructuralAppend(q2, b, '}', false);
    NoStructural(b, '{', st);
    NoStructural(b, '}', st);
    StructuralAppend(q3, "}", '{', false);
    StructuralAppend(q3, "}", '}', false);
  }

  /** Reading `x + y` is reading `x`, then `y` from the state `x` ends in. */
  lemma {:induction false} StructuralAppend(x: string, y: string, c: char, inString: bool)
    ensures Structural(x + y, c, inString) == Structural(x, c, inString) + Structural(y, c, InStringAfter(x, inString))
    ensures InStringAfter(x + y, inString) == InStringAfter(y, InStringAfter(x, inString))
    decreases |x|
  {
    if |x| == 0 {
      assert x + y == y;
    } else {
      assert (x + y)[1..] == x[1..] + y;
      StructuralAppend(x[1..], y, c, if x[0] == '"' then !inString else inString);
    }
  }

  /** Text without `c` has no structural `c`. */
  lemma {:induction false} NoStructural(x: string, c: char, inString: bool)
    requires forall k :: 0 <= k < |x| ==> x[k] != c
    ensures Structural(x, c, inString) == 0
    decreases |x|
  {
    if |x| > 0 {
      NoStructural(x[1..], c, if x[0] == '"' then !inString else inString);
    }
  }

  /** Each `"` flips the state, so only the parity of their number matters. */
  lemma {:induction false} QuoteParity(x: string, inString: bool)
    ensures InStringAfter(x, inString) == (if CountChar(x, '"') % 2 == 1 then !inString else inString)
    decreases |x|
  {
    if |x| > 0 {
      QuoteParity(x[1..], if x[0] == '"' then !inString else inString);
      assert x == [x[0]] + x[1..];
      CountAppend([x[0]], x[1..], '"');
      assert CountChar([x[0]], '"') == (if x[0] == '"' then 1 else 0) by {
        assert [x[0]][..0] == [];
      }
    }
  }

  /**
   * A reply holding one flat object, `p{b}q` with no braces in the prose
   * `p` or in the body `b`, hands exactly `{b}` to the decoder, whatever `q`
   * holds.
   */
  lemma FlatObjectIsKept<T>(p: string, b: string, q: string, decode: string -> Option<T>)
    requires forall k :: 0 <= k < |p| ==> p[k] != '{' && p[k] != '}'
    requires forall k :: 0 <= k < |b| ==> b[k] != '{' && b[k] != '}'
    ensures BraceSlice(p + "{" + b + "}" + q) == "{" + b + "}"
    ensures RunAnalysis(p + "{" + b + "}" + q, decode) == decode("{" + b + "}")
  {
    var text := p + "{" + b + "}" + q;
    FlatOpen(p, b, q);
    FlatClose(p, b, q);
    BraceSliceOrdered(text);
    assert text[|p|..|p| + |b| + 2] == "{" + b + "}";
  }

  /** In `p{b}q` with a brace-free `p`, the first `{` is the one after `p`. */
  lemma FlatOpen(p: string, b: string, q: string)
    requires forall k :: 0 <= k < |p| ==> p[k] != '{' && p[k] != '}'
    ensures Find(p + "{" + b + "}" + q, "{") == |p|
  {
    var text := p + "{" + b + "}" + q;
    OccursChar(text, '{', |p|);
    forall k | 0 <= k < |p|
      ensures !OccursAt(text, "{", k)
    {
      OccursChar(text, '{', k);
      assert text[k] == p[k];
    }
    FindAt(text, "{", |p|);
  }

  /** In `p{b}q` with brace-free `p` and `b`, the first `}` is the one after `b`. */
  lemma FlatClose(p: string, b: string, q: string)
    requires forall k :: 0 <= k < |p| ==> p[k] != '{' && p[k] != '}'
    requires forall k :: 0 <= k < |b| ==> b[k] != '{' && b[k] != '}'
    ensures Find(p + "{" + b + "}" + q, "}") == |p| + 1 + |b|
  {
    var text := p + "{" + b + "}" + q;
    var j := |p| + 1 + |b|;
    OccursChar(text, '}', j);
    forall k | 0 <= k < j
      ensures !OccursAt(text, "}", k)
    {
      OccursChar(text, '}', k);
      if k < |p| {
        assert text[k] == p[k];
      } else if k > |p| {
        assert text[k] == b[k - |p| - 1];
      }
    }
    FindAt(text, "}", j);
  }

  // ---------------------------------------------------------------------------
  // The user prompt
  // ---------------------------------------------------------------------------

  // The fixed pieces of the prompt, between the interpolated values.
  const P0 := "\n            **ONLY use the following script and wikipedia summary in determining the triggers of "
  const P1 := ".** Previous scripts and summaries are merely there for examples.\n            **Now Analyze This Movie** \n            Movie: "
  const P2 := "\n            Wikipedia Summary:\n            "
  const P3 := "\n\n            Script:\n            "
  const P4 := "\n\n            Triggers:\n\n            **Return only a valid JSON object. Do not guess. Only mark a trigger as present if it is clear in the script or summary.\n            Once you havegenerated your json, check your answers and cross reference with this script: "
  const P5 := " and this summary: "
  const P6 := ". For any triggers that do not explicitly show up in these two sources, but that you have marked as '1',\n            correct them to '0'. Return only the final generated JSON trigger list.\n            "

  /** The prompt template with its fixed pieces `ps` and the three values filled in, piece by piece. */
  function Pieces(ps: seq<string>, title: string, summary: string, script: string): (parts: seq<string>)
    requires |ps| == 7
    ensures |parts| == 13
  {
    [ps[0], title, ps[1], title, ps[2], summary, ps[3], script, ps[4], script, ps[5], summary, ps[6]]
  }

  /** The pieces written one after another. */
  function Flatten(parts: seq<string>): string {
    if |parts| == 0 then "" else parts[0] + Flatten(parts[1..])
  }

  /** Where piece `k` starts in `Flatten(parts)`: the total length of the pieces before it. */
  function PartStart(parts: seq<string>, k: nat): nat
    requires k <= |parts|
  {
    if k == 0 then 0 else PartStart(parts, k - 1) + |parts[k - 1]|
  }

  /** The template filled in. */
  function Fill(ps: seq<string>, title: string, summary: string, script: string): string
    requires |ps| == 7
  {
    Flatten(Pieces(ps, title, summary, script))
  }

  /** The user prompt sent with each request. */
  function UserPrompt(title: string, summary: string, script: string): string {
    Fill([P0, P1, P2, P3, P4, P5, P6], title, summary, script)
  }

  /** Dropping the first piece shifts every later start by its length. */
  lemma {:induction false} PartStartTail(parts: seq<string>, k: nat)
    requires 0 < k <= |parts|
    ensures PartStart(parts, k) == |parts[0]| + PartStart(parts[1..], k - 1)
  {
    if k > 1 {
      PartStartTail(parts, k - 1);
    }
  }

  /** A later piece starts no earlier than the end of an earlier one. */
  lemma {:induction false} PartStartMono(parts: seq<string>, k: nat, m: nat)
    requires k < m <= |parts|
    ensures PartStart(parts, k) + |parts[k]| <= PartStart(parts, m)
    decreases m
  {
    if k + 1 < m {
      PartStartMono(parts, k, m - 1);
    }
  }

  /** An occurrence in `b` is an occurrence in `a + b`, shifted by `|a|`. */
  lemma OccursPrepend(a: string, b: string, sub: string, i: int)
    requires OccursAt(b, sub, i)
    ensures OccursAt(a + b, sub, |a| + i)
  {
    assert (a + b)[|a| + i..|a| + i + |sub|] == b[i..i + |sub|];
  }

  /** Every piece occurs in the flattened text at its start. */
  lemma {:induction false} PartOccurs(parts: seq<string>, k: nat)
    requires k < |parts|
    ensures OccursAt(Flatten(parts), parts[k], PartStart(parts, k))
    decreases k
  {
    if k == 0 {
      assert Flatten(parts)[..|parts[0]|] == parts[0];
    } else {
      PartOccurs(parts[1..], k - 1);
      PartStartTail(parts, k);
      OccursPrepend(parts[0], Flatten(parts[1..]), parts[k], PartStart(parts[1..], k - 1));
    }
  }

  /**
   * Any template of this shape names the title twice, and carries the
   * summary and the script twice each, the two copies not overlapping.
   */
  lemma FillContents(ps: seq<string>, title: string, summary: string, script: string)
    requires |ps| == 7 && |ps[1]| > 0
    ensures var p := Fill(ps, title, summary, script);
            && (exists i, j :: 0 <= i < j && OccursAt(p, title, i) && OccursAt(p, title, j))
            && (exists i, j :: 0 <= i && i + |summary| <= j && OccursAt(p, summary, i) && OccursAt(p, summary, j))
            && (exists i, j :: 0 <= i && i + |script| <= j && OccursAt(p, script, i) && OccursAt(p, script, j))
  {
    var parts := Pieces(ps, title, summary, script);
    var p := Fill(ps, title, summary, script);
    assert p == Flatten(parts);
    assert parts[1] == title && parts[3] == title && parts[2] == ps[1];
    assert parts[5] == summary && parts[11] == summary;
    assert parts[7] == script && parts[9] == script;
    PartOccurs(parts, 1);
    PartOccurs(parts, 3);
    PartStartMono(parts, 1, 2);
    PartStartMono(parts, 2, 3);
    assert OccursAt(p, title, PartStart(parts, 1)) && OccursAt(p, title, PartStart(parts, 3));
    PartOccurs(parts, 5);
    PartOccurs(parts, 11);
    PartStartMono(parts, 5, 11);
    assert OccursAt(p, summary, PartStart(parts, 5)) && OccursAt(p, summary, PartStart(parts, 11));
    PartOccurs(parts, 7);
    PartOccurs(parts, 9);
    PartStartMono(parts, 7, 9);
    assert OccursAt(p, script, PartStart(parts, 7)) && OccursAt(p, script, PartStart(parts, 9));
  }

  /**
   * The prompt names the title twice, and carries the summary and the
   * script twice each: once in the body, once in the instruction to check
   * the answer against them, without the two copies overlapping.
   */
  lemma PromptContents(title: string, summary: string, script: string)
    ensures var p := UserPrompt(title, summary, script);
            && (exists i, j :: 0 <= i < j && OccursAt(p, title, i) && OccursAt(p, title, j))
            && (exists i, j :: 0 <= i && i + |summary| <= j && OccursAt(p, summary, i) && OccursAt(p, summary, j))
            && (exists i, j :: 0 <= i && i + |script| <= j && OccursAt(p, script, i) && OccursAt(p, script, j))
  {
    var ps := [P0, P1, P2, P3, P4, P5, P6];
    assert |ps[1]| > 0 by {
      assert ps[1] == P1;
    }
    FillContents(ps, title, summary, script);
    assert UserPrompt(title, summary, script) == Fill(ps, title, summary, script);
  }
}

=== FILE: pystr.dfy ===
/**
 * The parts of Python's `str` the scrapers rely on: `in`, `find`, `split`,
 * `join`, `strip`, `lower`, `startswith`/`endswith`, slicing and `str(int)`.
 * Lower-casing and whitespace are the ASCII subset of Python's Unicode rules.
 */
module PyStr {

  /** Whitespace as `str.isspace` and the regex class `\s` see it, restricted to ASCII. */
  predicate IsSpace(c: char) {
    c == ' ' || c == '\t' || c == '\n' || c == '\r' || c == '\U{0B}' || c == '\U{0C}'
    || ('\U{1C}' <= c <= '\U{1F}')
  }

  function LowerChar(c: char): char {
    if 'A' <= c <= 'Z' then (c as int + 32) as char else c
  }

  /** `s.lower()` on ASCII letters. */
  function Lower(s: string): (r: string)
    ensures |r| == |s|
    ensures forall i :: 0 <= i < |s| ==> r[i] == LowerChar(s[i])
  {
    if |s| == 0 then [] else [LowerChar(s[0])] + Lower(s[1..])
  }

  predicate StartsWith(s: string, prefix: string) {
    |prefix| <= |s| && s[..|prefix|] == prefix
  }

  predicate EndsWith(s: string, suffix: string) {
    |suffix| <= |s| && s[|s| - |suffix|..] == suffix
  }

  /** `sub` occurs in `s` starting at index `i`. */
  predicate OccursAt(s: string, sub: string, i: int) {
    0 <= i && i + |sub| <= |s| && s[i..i + |sub|] == sub
  }

  /** `sub in s`. */
  predicate Contains(s: string, sub: string) {
    exists i | 0 <= i <= |s| - |sub| :: OccursAt(s, sub, i)
  }

  /** A one-character string occurs exactly where that character stands. */
  lemma OccursChar(s: string, c: char, k: int)
    requires 0 <= k < |s|
    ensures OccursAt(s, [c], k) <==> s[k] == c
  {
    assert s[k..k + 1] == [s[k]];
  }

  /** A string that lacks the first character of `sub` cannot contain `sub`. */
  lemma AbsentHead(s: string, sub: string)
    requires |sub| > 0 && sub[0] !in s
    ensures !Contains(s, sub)
  {
  }

  /** An occurrence inside a slice is an occurrence in the whole string. */
  lemma OccursInSlice(s: string, a: int, b: int, sub: string, j: int)
    requires 0 <= a <= b <= |s|
    requires OccursAt(s[a..b], sub, j)
    ensures OccursAt(s, sub, a + j)
  {
    var t := s[a..b];
    forall k | 0 <= k < |sub|
      ensures s[a + j..a + j + |sub|][k] == sub[k]
    {
      assert t[j..j + |sub|][k] == t[j + k] == s[a + j + k];
    }
  }

  /** An occurrence inside a suffix is an occurrence in the whole string. */
  lemma OccursInSuffix(s: string, a: nat, sub: string, j: int)
    requires a <= |s|
    requires OccursAt(s[a..], sub, j)
    ensures OccursAt(s, sub, a + j)
  {
    assert s[a..] == s[a..|s|];
    OccursInSlice(s, a, |s|, sub, j);
  }

  /** A suffix of a suffix is a suffix. */
  lemma EndsWithSuffix(s: string, a: nat, t: string)
    requires a <= |s|
    requires EndsWith(s[a..], t)
    ensures EndsWith(s, t)
  {
    assert s[a..][|s[a..]| - |t|..] == s[|s| - |t|..];
  }

  /** A string free of `sub` has no slice containing `sub`. */
  lemma NotContainsSlice(s: string, a: int, b: int, sub: string)
    requires 0 <= a <= b <= |s|
    requires !Contains(s, sub)
    ensures !Contains(s[a..b], sub)
  {
    if Contains(s[a..b], sub) {
      var j :| 0 <= j <= |s[a..b]| - |sub| && OccursAt(s[a..b], sub, j);
      OccursInSlice(s, a, b, sub, j);
      assert false;
    }
  }

  /** `i` is where `sub` first occurs in `s`. */
  predicate FirstOccurrence(s: string, sub: string, i: int) {
    0 <= i <= |s| - |sub| && OccursAt(s, sub, i)
    && forall j :: 0 <= j < i ==> !OccursAt(s, sub, j)
  }

  /** Every occurrence is preceded by (or is) a first occurrence. */
  lemma {:induction false} FirstOccurrenceExists(s: string, sub: string, k: nat)
    requires OccursAt(s, sub, k)
    ensures exists i :: 0 <= i <= k && FirstOccurrence(s, sub, i)
    decreases k
  {
    if j :| 0 <= j < k && OccursAt(s, sub, j) {
      FirstOccurrenceExists(s, sub, j);
    } else {
      assert FirstOccurrence(s, sub, k);
    }
  }

  /** A string containing `sub` has a first occurrence of it. */
  lemma HasFirstOccurrence(s: string, sub: string)
    requires Contains(s, sub)
    ensures exists i :: FirstOccurrence(s, sub, i)
  {
    var k :| 0 <= k <= |s| - |sub| && OccursAt(s, sub, k);
    FirstOccurrenceExists(s, sub, k);
  }

  /** `s.find(sub)`: the index of the first occurrence, or -1. */
  function Find(s: string, sub: string): (r: int)
    ensures r == -1 || OccursAt(s, sub, r)
  {
    if Contains(s, sub) then
      HasFirstOccurrence(s, sub);
      var i :| FirstOccurrence(s, sub, i);
      i
    else -1
  }

  /** `s.find(sub)` is -1 exactly when `sub not in s`, and otherwise no occurrence comes earlier. */
  lemma FindSpec(s: string, sub: string)
    ensures Find(s, sub) == -1 <==> !Contains(s, sub)
    ensures Find(s, sub) != -1 ==> FirstOccurrence(s, sub, Find(s, sub))
    ensures forall j :: 0 <= j < Find(s, sub) ==> !OccursAt(s, sub, j)
  {
  }

  /** An occurrence with none before it is what `find` returns. */
  lemma FindAt(s: string, sub: string, i: int)
    requires OccursAt(s, sub, i)
    requires forall j :: 0 <= j < i ==> !OccursAt(s, sub, j)
    ensures Find(s, sub) == i
  {
    FindSpec(s, sub);
  }

  /** Containment is transitive. */
  lemma ContainsTrans(a: string, b: string, c: string)
    requires Contains(a, b) && Contains(b, c)
    ensures Contains(a, c)
  {
    var i :| 0 <= i <= |a| - |b| && OccursAt(a, b, i);
    var j :| 0 <= j <= |b| - |c| && OccursAt(b, c, j);
    assert b == a[i..i + |b|];
    OccursInSlice(a, i, i + |b|, c, j);
  }

  /** `s.split(sep)` for a non-empty separator. */
  function Split(s: string, sep: string): (parts: seq<string>)
    requires |sep| > 0
    ensures |parts| >= 1
    decreases |s|
  {
    var i := Find(s, sep);
    if i == -1 then [s] else [s[..i]] + Split(s[i + |sep|..], sep)
  }

  /** One step of `split`: the text before the first separator, then the split of the rest. */
  lemma SplitStep(s: string, sep: string)
    requires |sep| > 0
    requires Find(s, sep) != -1
    ensures Split(s, sep) == [s[..Find(s, sep)]] + Split(s[Find(s, sep) + |sep|..], sep)
  {
  }

  /** No piece of `s.split(sep)` contains `sep`. */
  lemma {:induction false} SplitPiecesFree(s: string, sep: string)
    requires |sep| > 0
    ensures forall k :: 0 <= k < |Split(s, sep)| ==> !Contains(Split(s, sep)[k], sep)
    decreases |s|
  {
    var i := Find(s, sep);
    FindSpec(s, sep);
    if i != -1 {
      var head := s[..i];
      var rest := s[i + |sep|..];
      SplitPiecesFree(rest, sep);
      assert !Contains(head, sep) by {
        if Contains(head, sep) {
          var j :| 0 <= j <= |head| - |sep| && OccursAt(head, sep, j);
          OccursInSlice(s, 0, i, sep, j);
        }
      }
      SplitStep(s, sep);
    }
  }

  function Last<T>(xs: seq<T>): T
    requires |xs| > 0
  {
    xs[|xs| - 1]
  }

  /** `sep.join(parts)`. */
  function Join(parts: seq<string>, sep: string): string {
    if |parts| == 0 then ""
    else if |parts| == 1 then parts[0]
    else parts[0] + sep + Join(parts[1..], sep)
  }

  /** `s.split(sep)` has more than one piece exactly when `sep in s`. */
  lemma SplitSingle(s: string, sep: string)
    requires |sep| > 0
    ensures |Split(s, sep)| == 1 <==> !Contains(s, sep)
  {
    FindSpec(s, sep);
  }

  /** The first piece of `s.split(sep)` is everything before the first separator. */
  lemma SplitFirst(s: string, sep: string)
    requires |sep| > 0
    ensures Find(s, sep) != -1 ==> Split(s, sep)[0] == s[..Find(s, sep)]
    ensures Find(s, sep) == -1 ==> Split(s, sep) == [s]
  {
    FindSpec(s, sep);
  }

  /** The text after the last separator, found by repeatedly cutting at the first one. */
  function AfterLast(s: string, sep: string): (r: string)
    requires |sep| > 0
    ensures EndsWith(s, r)
    decreases |s|
  {
    var i := Find(s, sep);
    if i == -1 then s
    else
      var r := AfterLast(s[i + |sep|..], sep);
      EndsWithSuffix(s, i + |sep|, r);
      r
  }

  /** `s.split(sep)[-1]` is the text after the last separator. */
  lemma {:induction false} SplitLast(s: string, sep: string)
    requires |sep| > 0
    ensures Last(Split(s, sep)) == AfterLast(s, sep)
    decreases |s|
  {
    var i := Find(s, sep);
    if i != -1 {
      SplitLast(s[i + |sep|..], sep);
      SplitStep(s, sep);
    }
  }

  /** The text after the last separator holds no separator. */
  lemma {:induction false} AfterLastFree(s: string, sep: string)
    requires |sep| > 0
    ensures !Contains(AfterLast(s, sep), sep)
    decreases |s|
  {
    var i := Find(s, sep);
    if i == -1 {
      FindSpec(s, sep);
      assert AfterLast(s, sep) == s;
    } else {
      var rest := s[i + |sep|..];
      AfterLastFree(rest, sep);
      assert AfterLast(s, sep) == AfterLast(rest, sep);
    }
  }

  /** When `sep in s`, the text after the last separator is directly preceded by one. */
  lemma AfterLastPreceded(s: string, sep: string)
    requires |sep| > 0
    requires Contains(s, sep)
    ensures OccursAt(s, sep, |s| - |AfterLast(s, sep)| - |sep|)
  {
    FindSpec(s, sep);
    AfterLastPrecededFrom(s, sep, Find(s, sep));
  }

  /** `AfterLastPreceded`, by induction from the first occurrence `i`. */
  lemma {:induction false} AfterLastPrecededFrom(s: string, sep: string, i: int)
    requires |sep| > 0
    requires i == Find(s, sep) && i != -1
    ensures OccursAt(s, sep, |s| - |AfterLast(s, sep)| - |sep|)
    decreases |s|
  {
    var rest := s[i + |sep|..];
    var r := AfterLast(rest, sep);
    assert AfterLast(s, sep) == r;
    var i' := Find(rest, sep);
    if i' != -1 {
      AfterLastPrecededFrom(rest, sep, i');
      PrecededShift(s, sep, i + |sep|, r);
    } else {
      assert r == rest;
    }
  }

  /** A separator just before a suffix of `s[a..]` sits at the same place in `s`. */
  lemma PrecededShift(s: string, sep: string, a: nat, r: string)
    requires a <= |s|
    requires OccursAt(s[a..], sep, |s| - a - |r| - |sep|)
    ensures OccursAt(s, sep, |s| - |r| - |sep|)
  {
    OccursInSuffix(s, a, sep, |s| - a - |r| - |sep|);
  }

  /**
   * Independent description of `s.split(sep)[-1]`: `t` ends `s`, holds no
   * `sep`, and directly follows an occurrence of `sep` when `s` holds one;
   * without one it is all of `s`.
   */
  predicate TextAfterLast(s: string, sep: string, t: string) {
    && EndsWith(s, t)
    && !Contains(t, sep)
    && (Contains(s, sep) ==> OccursAt(s, sep, |s| - |t| - |sep|))
    && (!Contains(s, sep) ==> t == s)
  }

  /** `AfterLast` meets the description. */
  lemma AfterLastSpec(s: string, sep: string)
    requires |sep| > 0
    ensures TextAfterLast(s, sep, AfterLast(s, sep))
  {
    AfterLastFree(s, sep);
    if Contains(s, sep) {
      AfterLastPreceded(s, sep);
    } else {
      FindSpec(s, sep);
    }
  }

  /** No proper suffix of `sep` is also a prefix of it, so two occurrences never overlap. */
  predicate NoSelfOverlap(sep: string) {
    forall k :: 0 < k < |sep| ==> sep[k..] != sep[..|sep| - k]
  }

  /**
   * A separator whose first character, wherever it recurs, is followed by
   * something other than its second character cannot overlap itself.
   */
  lemma NoSelfOverlapBy(sep: string)
    requires |sep| >= 2
    requires forall k :: 0 < k < |sep| && sep[k] == sep[0] ==> k + 1 < |sep| && sep[k + 1] != sep[1]
    ensures NoSelfOverlap(sep)
  {
    forall k | 0 < k < |sep|
      ensures sep[k..] != sep[..|sep| - k]
    {
      if sep[k] == sep[0] {
        assert sep[k..][1] != sep[..|sep| - k][1];
      } else {
        assert sep[k..][0] != sep[..|sep| - k][0];
      }
    }
  }

  /**
   * For a separator that cannot overlap itself the description has one
   * solution, so it pins `s.split(sep)[-1]` down.
   */
  lemma TextAfterLastUnique(s: string, sep: string, t1: string, t2: string)
    requires |sep| > 0 && NoSelfOverlap(sep)
    requires TextAfterLast(s, sep, t1) && TextAfterLast(s, sep, t2)
    ensures t1 == t2
  {
    if Contains(s, sep) {
      if |t1| < |t2| {
        ShorterAfterLast(s, sep, t1, t2);
      } else if |t2| < |t1| {
        ShorterAfterLast(s, sep, t2, t1);
      }
    }
  }

  /**
   * Of two suffixes that each follow an occurrence of `sep`, the longer one
   * holds the other's occurrence, unless the two occurrences overlap.
   */
  lemma ShorterAfterLast(s: string, sep: string, t1: string, t2: string)
    requires |sep| > 0 && EndsWith(s, t1) && EndsWith(s, t2) && |t1| < |t2|
    requires OccursAt(s, sep, |s| - |t1| - |sep|) && OccursAt(s, sep, |s| - |t2| - |sep|)
    ensures Contains(t2, sep) || !NoSelfOverlap(sep)
  {
    var p1 := |s| - |t1| - |sep|;
    var p2 := |s| - |t2| - |sep|;
    var start := |s| - |t2|;
    assert t2 == s[start..];
    if p1 >= start {
      assert OccursAt(t2, sep, p1 - start) by {
        assert t2[p1 - start..p1 - start + |sep|] == s[p1..p1 + |sep|];
      }
    } else {
      var k := p1 - p2;
      assert sep[k..] == s[p1..p2 + |sep|] == sep[..|sep| - k];
    }
  }

  /** The number of leading whitespace characters. */
  function LeadingSpaces(s: string): (n: nat)
    ensures n <= |s|
    ensures forall i :: 0 <= i < n ==> IsSpace(s[i])
    ensures n == |s| || !IsSpace(s[n])
  {
    if |s| > 0 && IsSpace(s[0]) then 1 + LeadingSpaces(s[1..]) else 0
  }

  /** `s.rstrip()`. */
  function RStrip(s: string): (r: string)
    ensures StartsWith(s, r)
    ensures forall i :: |r| <= i < |s| ==> IsSpace(s[i])
    ensures r == [] || !IsSpace(r[|r| - 1])
  {
    if |s| > 0 && IsSpace(s[|s| - 1]) then RStrip(s[..|s| - 1]) else s
  }

  /**
   * `s.strip()`: the slice left after removing all leading and all trailing
   * whitespace.
   */
  function Strip(s: string): (r: string)
    ensures OccursAt(s, r, LeadingSpaces(s))
    ensures forall i :: LeadingSpaces(s) + |r| <= i < |s| ==> IsSpace(s[i])
    ensures r == [] || (!IsSpace(r[0]) && !IsSpace(r[|r| - 1]))
  {
    var n := LeadingSpaces(s);
    var r := RStrip(s[n..]);
    assert s[n..n + |r|] == r;
    r
  }

  /**
   * Independent description of `s.strip()`: `r` sits in `s` with only
   * whitespace around it and does not itself begin or end with whitespace.
   */
  predicate Trimmed(s: string, r: string) {
    exists n | 0 <= n <= |s| - |r| ::
      && OccursAt(s, r, n)
      && (forall i :: 0 <= i < n ==> IsSpace(s[i]))
      && (forall i :: n + |r| <= i < |s| ==> IsSpace(s[i]))
      && (r == [] || (!IsSpace(r[0]) && !IsSpace(r[|r| - 1])))
  }

  /** `strip` meets the description, and it is the only string that does. */
  lemma StripIsTrimmed(s: string, r: string)
    ensures Trimmed(s, Strip(s))
    ensures Trimmed(s, r) <==> r == Strip(s)
  {
    var n := LeadingSpaces(s);
    assert OccursAt(s, Strip(s), n);
    if Trimmed(s, r) {
      TrimmedUnique(s, r, Strip(s));
    }
  }

  /** At most one string meets the description of `s.strip()`. */
  lemma TrimmedUnique(s: string, r: string, t: string)
    requires Trimmed(s, r) && Trimmed(s, t)
    ensures r == t
  {
    var m :| 0 <= m <= |s| - |r| && OccursAt(s, r, m)
             && (forall i :: 0 <= i < m ==> IsSpace(s[i]))
             && (forall i :: m + |r| <= i < |s| ==> IsSpace(s[i]))
             && (r == [] || (!IsSpace(r[0]) && !IsSpace(r[|r| - 1])));
    var k :| 0 <= k <= |s| - |t| && OccursAt(s, t, k)
             && (forall i :: 0 <= i < k ==> IsSpace(s[i]))
             && (forall i :: k + |t| <= i < |s| ==> IsSpace(s[i]))
             && (t == [] || (!IsSpace(t[0]) && !IsSpace(t[|t| - 1])));
    if r != [] {
      assert s[m] == r[0] && s[m + |r| - 1] == r[|r| - 1];
    }
    if t != [] {
      assert s[k] == t[0] && s[k + |t| - 1] == t[|t| - 1];
    }
    if r != [] && t != [] {
      assert m == k;
      assert |r| == |t|;
      assert r == s[m..m + |r|];
    }
  }

  /** `s.count(c)` for a single character `c`. */
  function CountChar(s: string, c: char): (n: nat)
    ensures n <= |s|
  {
    if |s| == 0 then 0 else CountChar(s[..|s| - 1], c) + (if s[|s| - 1] == c then 1 else 0)
  }

  /** Counting distributes over concatenation. */
  lemma {:induction false} CountAppend(s: string, t: string, c: char)
    ensures CountChar(s + t, c) == CountChar(s, c) + CountChar(t, c)
    decreases |t|
  {
    if |t| > 0 {
      var t' := t[..|t| - 1];
      assert (s + t)[..|s + t| - 1] == s + t';
      CountAppend(s, t', c);
    } else {
      assert s + t == s;
    }
  }

  /** A string without `c` counts none of it. */
  lemma {:induction false} NoCharCount(s: string, c: char)
    requires forall k :: 0 <= k < |s| ==> s[k] != c
    ensures CountChar(s, c) == 0
    decreases |s|
  {
    if |s| > 0 {
      NoCharCount(s[..|s| - 1], c);
    }
  }

  /** A Python slice bound: negative values count from the end, then clamp to `0..n`. */
  function SliceIndex(i: int, n: nat): (k: nat)
    ensures k <= n
  {
    if i < 0 then (if i + n < 0 then 0 else i + n)
    else if i > n then n
    else i
  }

  /**
   * `s[start:stop]`: the characters from the normalised start up to the
   * normalised stop, none when the bounds cross.
   */
  function Slice(s: string, start: int, stop: int): (r: string)
    ensures var a, b := SliceIndex(start, |s|), SliceIndex(stop, |s|);
            && |r| == (if a < b then b - a else 0)
            && (a < b ==> OccursAt(s, r, a))
  {
    var a, b := SliceIndex(start, |s|), SliceIndex(stop, |s|);
    if a < b then s[a..b] else []
  }

  function DigitChar(d: nat): char
    requires d < 10
  {
    "0123456789"[d]
  }

  /** `str(n)` for a natural number: decimal digits, no leading zero. */
  function NatToStr(n: nat): (r: string)
    ensures |r| >= 1
    ensures forall i :: 0 <= i < |r| ==> '0' <= r[i] <= '9'
    ensures |r| > 1 ==> r[0] != '0'
  {
    if n < 10 then [DigitChar(n)] else NatToStr(n / 10) + [DigitChar(n % 10)]
  }

  /** `str(i)` for an integer. */
  function IntToStr(i: int): string {
    if i < 0 then "-" + NatToStr(-i) else NatToStr(i)
  }
}

=== FILE: script_scraper.dfy ===
/**
 * The script locators: sfy.ru (title search, IMDb verification, PDF link or
 * the text after an "educational purposes" marker) and Daily Script (IMDb
 * id extraction from listing links, the neighbouring script link, `.pdf`
 * dispatch), together with the two PDF-to-text routines.
 *
 * HTTP is a function parameter: a GET either raises (its message is what
 * `str(e)` gives) or yields a status and the parsed page. A parsed page is
 * its anchors in document order, its `get_text(separator="\n")` text and
 * what a PDF reader makes of the same bytes. `urljoin` is a parameter too.
 */
module ScriptScraper {
  import opened Wrappers
  import opened PyStr
  import Seqs

  const DailyListings: seq<string> :=
    ["https://www.dailyscript.com/movie.html", "https://www.dailyscript.com/movie_n-z.html"]
  const DailySite := "https://www.dailyscript.com/"
  const SfyBase := "https://sfy.ru/scripts"
  const SfySite := "https://sfy.ru"

  /** One page of a PDF: its extracted text, or the exception extraction raised. */
  datatype PdfPage = PageText(text: string) | PageFails(reason: string)

  /** A PDF as a reader sees it: it fails to open, or it has pages. */
  datatype PdfDoc = Unreadable(reason: string) | Pages(pages: seq<PdfPage>)

  /**
   * An `<a>` tag: its text, its `href` attribute (`None` when absent) and an
   * identifier of its parent element.
   */
  datatype Anchor = Anchor(text: string, href: Option<string>, parent: nat)

  /** A fetched document, read as HTML (anchors and text) or as a PDF. */
  datatype Page = Page(anchors: seq<Anchor>, text: string, pdf: PdfDoc)

  /** The outcome of `requests.get`. */
  datatype Reply = Raised(reason: string) | Response(status: int, page: Page)

  /** The outcome of `requests.head`. */
  datatype HeadReply = HeadRaised(reason: string) | HeadStatus(status: int)

  /** The outside world: GET, HEAD and `urljoin`. */
  datatype Web = Web(get: string -> Reply, head: string -> HeadReply, join: (string, string) -> string)

  // ---------------------------------------------------------------------------
  // PDF text
  // ---------------------------------------------------------------------------

  /** The text a page contributes; a failing page contributes nothing. */
  function PageString(p: PdfPage): string {
    if p.PageText? then p.text else ""
  }

  /** The texts of `ps` concatenated in page order. */
  function Concat(ps: seq<PdfPage>): string
    decreases |ps|
  {
    if |ps| == 0 then "" else Concat(ps[..|ps| - 1]) + PageString(ps[|ps| - 1])
  }

  /** The number of pages before the first one whose extraction fails. */
  function ReadableCount(ps: seq<PdfPage>): (k: nat)
    ensures k <= |ps|
    ensures forall j :: 0 <= j < k ==> ps[j].PageText?
    ensures k < |ps| ==> ps[k].PageFails?
  {
    var f := Seqs.First(ps, (p: PdfPage) => p.PageFails?);
    if f == -1 then |ps| else f
  }

  /** The text of a prefix of the pages is a prefix of the whole text. */
  lemma {:induction false} ConcatPrefix(ps: seq<PdfPage>, k: nat)
    requires k <= |ps|
    ensures StartsWith(Concat(ps), Concat(ps[..k]))
    decreases |ps|
  {
    if k < |ps| {
      var n := |ps| - 1;
      assert ps[..n][..k] == ps[..k];
      ConcatPrefix(ps[..n], k);
    } else {
      assert ps[..k] == ps;
    }
  }

  /**
   * `pdf_to_text`: the page texts are appended one by one; an exception ends
   * the loop and the text gathered so far is returned. So the result is the
   * text of the pages before the first failing one: empty when the file does
   * not open, a prefix of the full text otherwise, and all of it when every
   * page reads.
   */
  method PdfToText(doc: PdfDoc) returns (text: string)
    ensures doc.Unreadable? ==> text == ""
    ensures doc.Pages? ==> text == Concat(doc.pages[..ReadableCount(doc.pages)])
    ensures doc.Pages? ==> StartsWith(Concat(doc.pages), text)
    ensures doc.Pages? && (forall j :: 0 <= j < |doc.pages| ==> doc.pages[j].PageText?)
            ==> text == Concat(doc.pages)
  {
    text := "";
    if doc.Pages? {
      var ps := doc.pages;
      var i := 0;
      while i < |ps| && ps[i].PageText?
        invariant 0 <= i <= ReadableCount(ps)
        invariant text == Concat(ps[..i])
      {
        assert ps[..i + 1][..i] == ps[..i];
        text := text + ps[i].text;
        i := i + 1;
      }
      ConcatPrefix(ps, i);
      if forall j :: 0 <= j < |ps| ==> ps[j].PageText? {
        assert ps[..i] == ps;
      }
    }
  }

  /** What PyPDF2 yields: the first exception raised, or the text of all pages. */
  datatype Outcome = Raise(reason: string) | Value(text: string)

  /** Reading every page with PyPDF2, where any exception aborts the read. */
  function ReadPdf(doc: PdfDoc): (o: Outcome)
    ensures o.Value? <==> doc.Pages? && forall j :: 0 <= j < |doc.pages| ==> doc.pages[j].PageText?
    ensures o.Value? ==> o.text == Concat(doc.pages)
  {
    match doc
    case Unreadable(e) => Raise(e)
    case Pages(ps) =>
      var k := ReadableCount(ps);
      if k < |ps| then Raise(ps[k].reason)
      else
        assert ps[..k] == ps;
        Value(Concat(ps))
  }

  const PdfErrorPrefix := "An error occurred while fetching the PDF script: "
  const HtmlErrorPrefix := "An error occurred while fetching the HTML script: "

  /** `fetch_pdf_script`. */
  function FetchPdfScript(url: string, web: Web): (r: string)
    ensures web.get(url).Raised? ==> r == PdfErrorPrefix + web.get(url).reason
    ensures web.get(url).Response? && web.get(url).status != 200 ==>
              r == "Failed to fetch PDF script from " + url + ". Status code: " + IntToStr(web.get(url).status)
    ensures web.get(url).Response? && web.get(url).status == 200 ==>
              match ReadPdf(web.get(url).page.pdf)
              case Raise(e) => r == PdfErrorPrefix + e
              case Value(t) => Trimmed(t, r)
  {
    match web.get(url)
    case Raised(e) => PdfErrorPrefix + e
    case Response(status, page) =>
      if status != 200 then "Failed to fetch PDF script from " + url + ". Status code: " + IntToStr(status)
      else
        match ReadPdf(page.pdf)
        case Raise(e) => PdfErrorPrefix + e
        case Value(t) =>
          StripIsTrimmed(t, Strip(t));
          Strip(t)
  }

  /** `fetch_html_script`. */
  function FetchHtmlScript(url: string, web: Web): (r: string)
    ensures web.get(url).Raised? ==> r == HtmlErrorPrefix + web.get(url).reason
    ensures web.get(url).Response? && web.get(url).status != 200 ==>
              r == "Failed to fetch script from " + url + ". Status code: " + IntToStr(web.get(url).status)
    ensures web.get(url).Response? && web.get(url).status == 200 ==> Trimmed(web.get(url).page.text, r)
  {
    match web.get(url)
    case Raised(e) => HtmlErrorPrefix + e
    case Response(status, page) =>
      if status != 200 then "Failed to fetch script from " + url + ". Status code: " + IntToStr(status)
      else
        StripIsTrimmed(page.text, Strip(page.text));
        Strip(page.text)
  }

  // ---------------------------------------------------------------------------
  // sfy.ru
  // ---------------------------------------------------------------------------

  const ImdbInfoText := "More info about this movie on IMDb.com"
  const Marker := "FOR EDUCATIONAL PURPOSES ONLY"

  /** The anchor's lower-cased text contains the lower-cased title (anchors with an `href` only). */
  predicate TitleMatch(title: string, a: Anchor) {
    a.href.Some? && Contains(Lower(a.text), Lower(title))
  }

  /** The anchor pointing to the movie's IMDb page. */
  predicate IsImdbInfo(a: Anchor) {
    a.href.Some? && a.text == ImdbInfoText
  }

  /** A non-empty `href` whose lower-cased form ends in `.pdf`. */
  predicate IsPdfLink(a: Anchor) {
    Truthy(a.href) && EndsWith(Lower(a.href.value), ".pdf")
  }

  /** Ends in `.`, `p`, `d`, `f`, each letter in either case. */
  predicate PdfSuffix(s: string) {
    && |s| >= 4
    && s[|s| - 4] == '.'
    && (s[|s| - 3] == 'p' || s[|s| - 3] == 'P')
    && (s[|s| - 2] == 'd' || s[|s| - 2] == 'D')
    && (s[|s| - 1] == 'f' || s[|s| - 1] == 'F')
  }

  /** `s.lower().endswith('.pdf')` is the case-blind suffix test. */
  lemma PdfSuffixLower(s: string)
    ensures EndsWith(Lower(s), ".pdf") <==> PdfSuffix(s)
  {
    if |s| >= 4 {
      var n := |s|;
      var l := Lower(s);
      LowerDot(s[n - 4]);
      LowerLetter(s[n - 3], 'p', 'P');
      LowerLetter(s[n - 2], 'd', 'D');
      LowerLetter(s[n - 1], 'f', 'F');
      if EndsWith(l, ".pdf") {
        assert l[n - 4..][0] == l[n - 4] && l[n - 4..][1] == l[n - 3];
        assert l[n - 4..][2] == l[n - 2] && l[n - 4..][3] == l[n - 1];
      }
    }
  }

  /** Only `.` lower-cases to `.`. */
  lemma LowerDot(c: char)
    ensures LowerChar(c) == '.' <==> c == '.'
  {
  }

  /** A lower-case letter comes from itself or its upper-case form. */
  lemma LowerLetter(c: char, lo: char, up: char)
    requires 'A' <= up <= 'Z' && lo as int == up as int + 32
    ensures LowerChar(c) == lo <==> c == lo || c == up
  {
  }

  /**
   * Step 2 of `sfy_get`: the first anchor in document order whose text
   * contains the title, joined to the site URL.
   */
  function MovieLink(anchors: seq<Anchor>, title: string, web: Web): (r: Option<string>)
    ensures r.None? <==> forall k :: 0 <= k < |anchors| ==> !TitleMatch(title, anchors[k])
    ensures r.Some? ==> exists k :: 0 <= k < |anchors| && TitleMatch(title, anchors[k])
                          && (forall j :: 0 <= j < k ==> !TitleMatch(title, anchors[j]))
                          && r.value == web.join(SfySite, anchors[k].href.value)
  {
    var k := Seqs.First(anchors, (a: Anchor) => TitleMatch(title, a));
    if k == -1 then None else Some(web.join(SfySite, anchors[k].href.value))
  }

  /**
   * Step 4 of `sfy_get`: the first IMDb anchor exists and the id is a
   * substring of its `href`.
   */
  function Verified(movie: Page, imdbId: string): (b: bool)
    ensures b <==> exists k :: 0 <= k < |movie.anchors| && IsImdbInfo(movie.anchors[k])
                     && (forall j :: 0 <= j < k ==> !IsImdbInfo(movie.anchors[j]))
                     && Contains(movie.anchors[k].href.value, imdbId)
    ensures (forall k :: 0 <= k < |movie.anchors| ==> !IsImdbInfo(movie.anchors[k])) ==> !b
  {
    var k := Seqs.First(movie.anchors, IsImdbInfo);
    k != -1 && Contains(movie.anchors[k].href.value, imdbId)
  }

  /**
   * Verification is by substring: a page that verifies an id also verifies
   * every id contained in it.
   */
  lemma VerifiedBySubstring(movie: Page, imdbId: string, shorter: string)
    requires Verified(movie, imdbId)
    requires Contains(imdbId, shorter)
    ensures Verified(movie, shorter)
  {
    var k := Seqs.First(movie.anchors, IsImdbInfo);
    ContainsTrans(movie.anchors[k].href.value, imdbId, shorter);
  }

  /** Where the PDF is looked for: an `href` not starting with "http" is joined to the site URL. */
  function PdfUrl(href: string, web: Web): string {
    if StartsWith(href, "http") then href else web.join(SfySite, href)
  }

  /** The marker fallback: the second piece of the page text split at the marker, stripped. */
  function MarkerSegment(text: string): Option<string> {
    var parts := Split(text, Marker);
    if |parts| > 1 then Some(Strip(parts[1])) else None
  }

  /** Steps 4 to 6 of `sfy_get`, on the fetched movie page. */
  function SfyMovie(movie: Page, imdbId: string, web: Web): Option<string> {
    if !Verified(movie, imdbId) then None
    else
      var q := Seqs.First(movie.anchors, IsPdfLink);
      if q != -1 then
        var url := PdfUrl(movie.anchors[q].href.value, web);
        match web.head(url)
        case HeadRaised(e) => Some("An error occurred: " + e)
        case HeadStatus(s) => if s == 404 then None else Some(FetchPdfScript(url, web))
      else MarkerSegment(movie.text)
  }

  /** `sfy_get`. */
  function SfyGet(title: string, imdbId: string, web: Web): Option<string> {
    match web.get(SfyBase)
    case Raised(e) => Some("An error occurred: " + e)
    case Response(status, page) =>
      if status != 200 then Some("Failed to fetch SFY scripts page. Status code: " + IntToStr(status))
      else
        var link := MovieLink(page.anchors, title, web);
        if !Truthy(link) then None
        else
          var url := link.value;
          match web.get(url)
          case Raised(e) => Some("An error occurred: " + e)
          case Response(s, movie) =>
            if s != 200 then Some("Failed to fetch the movie page at " + url + ". Status code: " + IntToStr(s))
            else SfyMovie(movie, imdbId, web)
  }

  /** No anchor on the scripts page matches the title: the answer is `None`. */
  lemma SfyNoTitleMatch(title: string, imdbId: string, web: Web)
    requires web.get(SfyBase).Response? && web.get(SfyBase).status == 200
    requires forall k :: 0 <= k < |web.get(SfyBase).page.anchors| ==> !TitleMatch(title, web.get(SfyBase).page.anchors[k])
    ensures SfyGet(title, imdbId, web) == None
  {
  }

  /** A movie page that does not verify gives `None`, whatever its PDF links or text. */
  lemma SfyUnverifiedIsNone(movie: Page, imdbId: string, web: Web, other: Page)
    requires !Verified(movie, imdbId)
    requires other.anchors == movie.anchors
    ensures SfyMovie(movie, imdbId, web) == None
    ensures SfyMovie(other, imdbId, web) == None
  {
  }

  /** The PDF link is tried first: when there is one, the page text plays no part. */
  lemma SfyPdfBeforeMarker(movie: Page, imdbId: string, web: Web, text: string)
    requires Seqs.First(movie.anchors, IsPdfLink) != -1
    ensures SfyMovie(movie.(text := text), imdbId, web) == SfyMovie(movie, imdbId, web)
  {
  }

  /**
   * The PDF link is checked with a HEAD request on its URL: the `href` when
   * it starts with "http", else the `href` joined to the site URL. A raising
   * HEAD gives the error message, a 404 gives `None`, and any other status
   * the PDF script fetched from that same URL.
   */
  lemma SfyPdfHead(movie: Page, imdbId: string, web: Web)
    requires Verified(movie, imdbId)
    requires Seqs.First(movie.anchors, IsPdfLink) != -1
    ensures var href := movie.anchors[Seqs.First(movie.anchors, IsPdfLink)].href.value;
            var url := if StartsWith(href, "http") then href else web.join(SfySite, href);
            && (web.head(url).HeadRaised? ==>
                  SfyMovie(movie, imdbId, web) == Some("An error occurred: " + web.head(url).reason))
            && (web.head(url) == HeadStatus(404) ==> SfyMovie(movie, imdbId, web) == None)
            && (web.head(url).HeadStatus? && web.head(url).status != 404 ==>
                  SfyMovie(movie, imdbId, web) == Some(FetchPdfScript(url, web)))
  {
  }

  /**
   * Why a fetched movie page yields nothing: it does not verify, its PDF
   * link answers HEAD with 404, or it has no PDF link and no marker.
   */
  predicate MovieDeclines(movie: Page, imdbId: string, web: Web) {
    var q := Seqs.First(movie.anchors, IsPdfLink);
    || !Verified(movie, imdbId)
    || (q != -1 && web.head(PdfUrl(movie.anchors[q].href.value, web)) == HeadStatus(404))
    || (q == -1 && !Contains(movie.text, Marker))
  }

  /**
   * `sfy_get` returns `None` exactly when the scripts page is fetched with
   * 200 and then no anchor names the title, or the movie page is fetched
   * with 200 and declines. Every error ends in a message instead.
   */
  lemma SfyNoneIff(title: string, imdbId: string, web: Web)
    ensures SfyGet(title, imdbId, web).None? <==>
              && web.get(SfyBase).Response? && web.get(SfyBase).status == 200
              && var link := MovieLink(web.get(SfyBase).page.anchors, title, web);
                 || !Truthy(link)
                 || (&& web.get(link.value).Response? && web.get(link.value).status == 200
                     && MovieDeclines(web.get(link.value).page, imdbId, web))
  {
    match web.get(SfyBase)
    case Raised(_) =>
    case Response(status, page) =>
      var link := MovieLink(page.anchors, title, web);
      if status == 200 && Truthy(link) {
        match web.get(link.value)
        case Raised(_) =>
        case Response(s, movie) =>
          MarkerSegmentSpec(movie.text);
      }
  }

  /**
   * The messages of `sfy_get`: an exception while fetching the scripts page
   * or the movie page gives "An error occurred: " and its text; a status
   * other than 200 gives the matching "Failed to fetch" message with the
   * status, and for the movie page its URL.
   */
  lemma SfyMessages(title: string, imdbId: string, web: Web)
    ensures web.get(SfyBase).Raised? ==>
              SfyGet(title, imdbId, web) == Some("An error occurred: " + web.get(SfyBase).reason)
    ensures web.get(SfyBase).Response? && web.get(SfyBase).status != 200 ==>
              SfyGet(title, imdbId, web)
              == Some("Failed to fetch SFY scripts page. Status code: " + IntToStr(web.get(SfyBase).status))
    ensures web.get(SfyBase).Response? && web.get(SfyBase).status == 200 ==>
              var link := MovieLink(web.get(SfyBase).page.anchors, title, web);
              Truthy(link) ==>
                && (web.get(link.value).Raised? ==>
                      SfyGet(title, imdbId, web) == Some("An error occurred: " + web.get(link.value).reason))
                && (web.get(link.value).Response? && web.get(link.value).status != 200 ==>
                      SfyGet(title, imdbId, web)
                      == Some("Failed to fetch the movie page at " + link.value + ". Status code: "
                              + IntToStr(web.get(link.value).status)))
  {
  }

  /**
   * The marker fallback yields nothing when the marker is absent, and
   * otherwise the stripped text between its first and second occurrence
   * (or up to the end when it occurs once), which holds no marker.
   */
  lemma MarkerSegmentSpec(text: string)
    ensures MarkerSegment(text).None? <==> !Contains(text, Marker)
    ensures Contains(text, Marker) ==>
              var i := Find(text, Marker);
              var rest := text[i + |Marker|..];
              var seg := if Contains(rest, Marker) then rest[..Find(rest, Marker)] else rest;
              && 0 <= i
              && MarkerSegment(text) == Some(Strip(seg))
              && !Contains(seg, Marker)
  {
    var parts := Split(text, Marker);
    SplitSingle(text, Marker);
    SplitPiecesFree(text, Marker);
    FindSpec(text, Marker);
    if Contains(text, Marker) {
      var i := Find(text, Marker);
      var rest := text[i + |Marker|..];
      SplitStep(text, Marker);
      assert parts[1] == Split(rest, Marker)[0];
      SplitFirst(rest, Marker);
      FindSpec(rest, Marker);
    }
  }

  // ---------------------------------------------------------------------------
  // Daily Script
  // ---------------------------------------------------------------------------

  /**
   * `part.split('/')[0].split('?')[0]`: the longest prefix of the part
   * holding neither `/` nor `?`, so it stops at the end or right before
   * the first `/` or `?`.
   */
  function IdPart(part: string): (id: string)
    ensures StartsWith(part, id)
    ensures !Contains(id, "/") && !Contains(id, "?")
    ensures |id| == |part| || part[|id|] == '/' || part[|id|] == '?'
  {
    var a := Split(part, "/")[0];
    SplitFirst(part, "/");
    SplitPiecesFree(part, "/");
    assert Find(part, "/") != -1 ==> part[Find(part, "/")] == '/' by {
      if Find(part, "/") != -1 {
        OccursChar(part, '/', Find(part, "/"));
      }
    }
    var b := Split(a, "?")[0];
    SplitFirst(a, "?");
    SplitPiecesFree(a, "?");
    if Find(a, "?") == -1 then b
    else
      NotContainsSlice(a, 0, Find(a, "?"), "/");
      OccursChar(a, '?', Find(a, "?"));
      assert part[|b|] == a[|b|];
      b
  }

  const TitleSep := "imdb.com/title/"
  const TitleSepAsWritten := "imdb.com/title/tt"
  const QuerySep := "imdb.com/Title?"

  /**
   * The IMDb id extraction as the code is written: the text after the last
   * `imdb.com/title/tt` (which consumes the `tt` of the id) or after the
   * last `imdb.com/Title?`, cut by `IdPart`. `None` for a link of neither shape.
   */
  function ExtractImdbIdAsWritten(href: string): (r: Option<string>)
    ensures r.Some? <==> Contains(href, TitleSep) || Contains(href, QuerySep)
    ensures r.Some? ==> !Contains(r.value, "/") && !Contains(r.value, "?")
    ensures Contains(href, TitleSep) ==>
              exists t :: TextAfterLast(href, TitleSepAsWritten, t) && r == Some(IdPart(t))
    ensures !Contains(href, TitleSep) && Contains(href, QuerySep) ==>
              exists t :: TextAfterLast(href, QuerySep, t) && r == Some(IdPart(t))
  {
    ImdbShapes(href);
    AfterLastSpec(href, TitleSepAsWritten);
    AfterLastSpec(href, QuerySep);
    if !Contains(href, "imdb.com/") then None
    else if Contains(href, TitleSep) then Some(IdPart(AfterLast(href, TitleSepAsWritten)))
    else if Contains(href, QuerySep) then Some(IdPart(AfterLast(href, QuerySep)))
    else None
  }

  /**
   * The extraction with the `title/` shape cut after `imdb.com/title/`, so
   * that the id keeps its `tt` and can equal an id like "tt0298203".
   */
  function ExtractImdbId(href: string): (r: Option<string>)
    ensures r.Some? <==> Contains(href, TitleSep) || Contains(href, QuerySep)
    ensures r.Some? ==> !Contains(r.value, "/") && !Contains(r.value, "?")
    ensures Contains(href, TitleSep) ==>
              exists t :: TextAfterLast(href, TitleSep, t) && r == Some(IdPart(t))
    ensures !Contains(href, TitleSep) && Contains(href, QuerySep) ==>
              exists t :: TextAfterLast(href, QuerySep, t) && r == Some(IdPart(t))
  {
    ImdbShapes(href);
    AfterLastSpec(href, TitleSep);
    AfterLastSpec(href, QuerySep);
    if !Contains(href, "imdb.com/") then None
    else if Contains(href, TitleSep) then Some(IdPart(AfterLast(href, TitleSep)))
    else if Contains(href, QuerySep) then Some(IdPart(AfterLast(href, QuerySep)))
    else None
  }

  /**
   * None of the three separators can overlap itself, so the text after the
   * last one, as `TextAfterLast` describes it, is unique.
   */
  lemma SeparatorsDoNotOverlap()
    ensures NoSelfOverlap(TitleSep) && NoSelfOverlap(TitleSepAsWritten) && NoSelfOverlap(QuerySep)
  {
    NoSelfOverlapBy(TitleSep);
    NoSelfOverlapBy(TitleSepAsWritten);
    NoSelfOverlapBy(QuerySep);
  }

  /**
   * The corrected extracted id of a general `title/` link: `t`, the text
   * after the last `imdb.com/title/`, cut by `IdPart`.
   */
  lemma TitleIdIsCutTail(href: string, t: string)
    requires Contains(href, TitleSep) && TextAfterLast(href, TitleSep, t)
    ensures ExtractImdbId(href) == Some(IdPart(t))
  {
    SeparatorsDoNotOverlap();
    AfterLastSpec(href, TitleSep);
    TextAfterLastUnique(href, TitleSep, t, AfterLast(href, TitleSep));
  }

  /**
   * As written, the id of a general `title/` link is `t`, the text after
   * the last `imdb.com/title/tt`, cut by `IdPart`.
   */
  lemma TitleIdIsCutTailAsWritten(href: string, t: string)
    requires Contains(href, TitleSep) && TextAfterLast(href, TitleSepAsWritten, t)
    ensures ExtractImdbIdAsWritten(href) == Some(IdPart(t))
  {
    SeparatorsDoNotOverlap();
    AfterLastSpec(href, TitleSepAsWritten);
    TextAfterLastUnique(href, TitleSepAsWritten, t, AfterLast(href, TitleSepAsWritten));
  }

  /**
   * A `Title?` link without the `title/` shape gets the same id from both
   * extractions: `t`, the text after the last `imdb.com/Title?`, cut by `IdPart`.
   */
  lemma QueryIdIsCutTail(href: string, t: string)
    requires !Contains(href, TitleSep) && Contains(href, QuerySep) && TextAfterLast(href, QuerySep, t)
    ensures ExtractImdbId(href) == Some(IdPart(t))
    ensures ExtractImdbIdAsWritten(href) == Some(IdPart(t))
  {
    SeparatorsDoNotOverlap();
    AfterLastSpec(href, QuerySep);
    TextAfterLastUnique(href, QuerySep, t, AfterLast(href, QuerySep));
  }

  /** Both link shapes contain `imdb.com/`, so that outer test never decides anything. */
  lemma ImdbShapes(href: string)
    ensures Contains(href, TitleSep) ==> Contains(href, "imdb.com/")
    ensures Contains(href, QuerySep) ==> Contains(href, "imdb.com/")
  {
    assert Contains(TitleSep, "imdb.com/") by {
      assert OccursAt(TitleSep, "imdb.com/", 0);
    }
    assert Contains(QuerySep, "imdb.com/") by {
      assert OccursAt(QuerySep, "imdb.com/", 0);
    }
    if Contains(href, TitleSep) {
      ContainsTrans(href, TitleSep, "imdb.com/");
    }
    if Contains(href, QuerySep) {
      ContainsTrans(href, QuerySep, "imdb.com/");
    }
  }

  /** An IMDb id as written in a URL path: no `/` and no `?`. */
  predicate PlainId(id: string) {
    forall i :: 0 <= i < |id| ==> id[i] != '/' && id[i] != '?'
  }

  const ImdbHost := "https://www."

  /** A separator `sep` directly after a prefix not holding `sep[0]` is its first occurrence. */
  lemma FirstAfterPrefix(host: string, sep: string, t: string)
    requires |sep| > 0
    requires forall i :: 0 <= i < |host| ==> host[i] != sep[0]
    ensures Find(host + sep + t, sep) == |host|
  {
    var s := host + sep + t;
    assert s[|host|..|host| + |sep|] == sep;
    forall j | 0 <= j < |host|
      ensures !OccursAt(s, sep, j)
    {
      assert s[j] == host[j];
    }
    FindAt(s, sep, |host|);
  }

  /** A separator with `/` at positions 8 and 14 never fits in an id followed by one `/`. */
  lemma NoSepInIdTail(id: string, sep: string)
    requires PlainId(id)
    requires |sep| > 14 && sep[8] == '/' && sep[14] == '/'
    ensures !Contains(id + "/", sep)
  {
  }

  /** With the separator once, after the host, the last piece is what follows it. */
  lemma AfterOnlySep(host: string, sep: string, t: string)
    requires |sep| > 0
    requires forall i :: 0 <= i < |host| ==> host[i] != sep[0]
    requires !Contains(t, sep)
    ensures AfterLast(host + sep + t, sep) == t
  {
    var s := host + sep + t;
    FirstAfterPrefix(host, sep, t);
    assert s[|host| + |sep|..] == t;
    FindSpec(t, sep);
  }

  /** The id part of an id followed by `/` is the id. */
  lemma IdPartOfId(id: string)
    requires PlainId(id)
    ensures IdPart(id + "/") == id
  {
    var t := id + "/";
    assert OccursAt(t, "/", |id|);
    forall j | 0 <= j < |id|
      ensures !OccursAt(t, "/", j)
    {
      assert t[j] == id[j];
    }
    FindAt(t, "/", |id|);
    SplitFirst(t, "/");
    assert t[..|id|] == id;
    assert Split(t, "/")[0] == id;
    assert !Contains(id, "?") by {
      forall j | 0 <= j <= |id| - 1
        ensures !OccursAt(id, "?", j)
      {
        assert id[j..j + 1][0] == id[j];
      }
    }
    FindSpec(id, "?");
    SplitFirst(id, "?");
    assert Split(id, "?")[0] == id;
  }

  /** The canonical link to an IMDb title page. */
  function CanonicalHref(id: string): string {
    ImdbHost + TitleSep + id + "/"
  }

  /** The host holds no `i`, so a separator starting with `i` first occurs after it. */
  lemma HostHasNoI()
    ensures forall i :: 0 <= i < |ImdbHost| ==> ImdbHost[i] != 'i'
  {
  }

  /**
   * As written, the canonical link of "tt" + `digits` yields `digits`: the
   * `tt` is lost, so the id "tt" + `digits` never matches it.
   */
  lemma AsWrittenDropsTt(digits: string)
    requires PlainId(digits)
    ensures ExtractImdbIdAsWritten(CanonicalHref("tt" + digits)) == Some(digits)
    ensures ExtractImdbIdAsWritten(CanonicalHref("tt" + digits)) != Some("tt" + digits)
  {
    var sep := TitleSepAsWritten;
    var href := CanonicalHref("tt" + digits);
    assert href == ImdbHost + sep + (digits + "/");
    assert OccursAt(href, TitleSep, |ImdbHost|) by {
      assert href[|ImdbHost|..|ImdbHost| + 15] == TitleSep;
    }
    HostHasNoI();
    NoSepInIdTail(digits, sep);
    AfterOnlySep(ImdbHost, sep, digits + "/");
    IdPartOfId(digits);
    assert |"tt" + digits| != |digits|;
  }

  /** The corrected extraction gives back the id of a canonical link. */
  lemma ExtractCanonical(id: string)
    requires PlainId(id)
    ensures ExtractImdbId(CanonicalHref(id)) == Some(id)
  {
    var sep := TitleSep;
    var href := CanonicalHref(id);
    assert href == ImdbHost + sep + (id + "/");
    assert OccursAt(href, sep, |ImdbHost|) by {
      assert href[|ImdbHost|..|ImdbHost| + 15] == sep;
    }
    HostHasNoI();
    NoSepInIdTail(id, sep);
    AfterOnlySep(ImdbHost, sep, id + "/");
    IdPartOfId(id);
  }

  /** A listing link whose IMDb id, by `extract`, is `imdbId`. */
  predicate IdLink(extract: string -> Option<string>, imdbId: string, a: Anchor) {
    Truthy(a.href) && Contains(a.href.value, "imdb.com/") && extract(a.href.value) == Some(imdbId)
  }

  /** A usable script link next to `link`: same parent, not equal to it, non-empty `href`. */
  predicate Sibling(link: Anchor, a: Anchor) {
    a.parent == link.parent && a.href.Some? && a != link && Truthy(a.href)
  }

  /** The `href` of the first usable script link next to `link`, if any. */
  function SiblingHref(anchors: seq<Anchor>, link: Anchor): (r: Option<string>)
    ensures r.None? <==> forall k :: 0 <= k < |anchors| ==> !Sibling(link, anchors[k])
    ensures r.Some? ==> exists k :: 0 <= k < |anchors| && Sibling(link, anchors[k])
                          && (forall j :: 0 <= j < k ==> !Sibling(link, anchors[j]))
                          && r == anchors[k].href && r.value != ""
  {
    var k := Seqs.First(anchors, (a: Anchor) => Sibling(link, a));
    if k == -1 then None else anchors[k].href
  }

  /** A link that matches the id and has a usable neighbour. */
  predicate Candidate(anchors: seq<Anchor>, extract: string -> Option<string>, imdbId: string, a: Anchor) {
    IdLink(extract, imdbId, a) && SiblingHref(anchors, a).Some?
  }

  /**
   * The script `href` a listing page leads to: the neighbour of the first
   * matching link that has one. A match without a neighbour lets the scan go on.
   */
  function LocateScript(anchors: seq<Anchor>, extract: string -> Option<string>, imdbId: string)
    : (r: Option<string>)
    ensures r.None? <==> forall k :: 0 <= k < |anchors| ==> !Candidate(anchors, extract, imdbId, anchors[k])
    ensures r.Some? ==> exists k :: 0 <= k < |anchors| && Candidate(anchors, extract, imdbId, anchors[k])
                          && (forall j :: 0 <= j < k ==> !Candidate(anchors, extract, imdbId, anchors[j]))
                          && r == SiblingHref(anchors, anchors[k])
  {
    var k := Seqs.First(anchors, (a: Anchor) => Candidate(anchors, extract, imdbId, a));
    if k == -1 then None else SiblingHref(anchors, anchors[k])
  }

  /**
   * The script URL is the site URL followed by the `href`; an `href` ending
   * in a dot and the letters p, d, f, each in either case, picks the PDF
   * reader, and any other the HTML one.
   */
  function FetchScript(href: string, web: Web): (r: string)
    ensures PdfSuffix(href) ==> r == FetchPdfScript(DailySite + href, web)
    ensures !PdfSuffix(href) ==> r == FetchHtmlScript(DailySite + href, web)
  {
    PdfSuffixLower(href);
    var url := DailySite + href;
    if EndsWith(Lower(href), ".pdf") then FetchPdfScript(url, web) else FetchHtmlScript(url, web)
  }

  /** The loop over the listing pages, in order. */
  function DailyFrom(urls: seq<string>, extract: string -> Option<string>, imdbId: string, web: Web)
    : Option<string>
    decreases |urls|
  {
    if |urls| == 0 then None
    else
      match web.get(urls[0])
      case Raised(e) => Some("An error occurred: " + e)
      case Response(status, page) =>
        if status != 200 then Some("Failed to fetch Daily Script page. Status code: " + IntToStr(status))
        else
          match LocateScript(page.anchors, extract, imdbId)
          case Some(href) => Some(FetchScript(href, web))
          case None => DailyFrom(urls[1..], extract, imdbId, web)
  }

  /** `dailyscript_get` with the id extraction as written. */
  function DailyScriptGetAsWritten(imdbId: string, web: Web): Option<string> {
    DailyFrom(DailyListings, ExtractImdbIdAsWritten, imdbId, web)
  }

  /** `dailyscript_get` with the corrected id extraction. */
  function DailyScriptGet(imdbId: string, web: Web): Option<string> {
    DailyFrom(DailyListings, ExtractImdbId, imdbId, web)
  }

  /** The listing page at `url` was fetched and holds no candidate. */
  predicate NoScriptOn(url: string, extract: string -> Option<string>, imdbId: string, web: Web) {
    && web.get(url).Response?
    && web.get(url).status == 200
    && LocateScript(web.get(url).page.anchors, extract, imdbId).None?
  }

  /**
   * Only "no match" gives `None`: the result is `None` exactly when every
   * listing page was fetched and none holds a candidate.
   */
  lemma {:induction false} DailyNoneIff(urls: seq<string>, extract: string -> Option<string>, imdbId: string,
                                        web: Web)
    ensures DailyFrom(urls, extract, imdbId, web).None?
            <==> forall i :: 0 <= i < |urls| ==> NoScriptOn(urls[i], extract, imdbId, web)
    decreases |urls|
  {
    if |urls| > 0 {
      DailyNoneIff(urls[1..], extract, imdbId, web);
      assert forall i :: 1 <= i < |urls| ==> urls[i] == urls[1..][i - 1];
    }
  }

  /**
   * A first listing page that raises or is not 200 ends the search with a
   * message; no later listing page is requested.
   */
  lemma DailyFirstFailureStops(urls: seq<string>, extract: string -> Option<string>, imdbId: string,
                               web: Web, web2: Web)
    requires |urls| > 0
    requires web.get(urls[0]).Raised? || web.get(urls[0]).status != 200
    requires web2.get(urls[0]) == web.get(urls[0])
    ensures DailyFrom(urls, extract, imdbId, web) == DailyFrom(urls, extract, imdbId, web2)
    ensures web.get(urls[0]).Raised? ==>
              DailyFrom(urls, extract, imdbId, web) == Some("An error occurred: " + web.get(urls[0]).reason)
    ensures web.get(urls[0]).Response? ==>
              DailyFrom(urls, extract, imdbId, web)
              == Some("Failed to fetch Daily Script page. Status code: " + IntToStr(web.get(urls[0]).status))
  {
  }

  /**
   * A listing page that was fetched and holds no candidate is passed over:
   * the search goes on with the next listing page.
   */
  lemma DailySkip(urls: seq<string>, extract: string -> Option<string>, imdbId: string, web: Web)
    requires |urls| > 0
    requires NoScriptOn(urls[0], extract, imdbId, web)
    ensures DailyFrom(urls, extract, imdbId, web) == DailyFrom(urls[1..], extract, imdbId, web)
  {
  }

  /**
   * When the first `i` listing pages were fetched and hold no candidate, the
   * result is what the search from listing page `i` on gives: a failure or a
   * candidate on a later page decides it as on the first.
   */
  lemma {:induction false} DailySkipTo(urls: seq<string>, extract: string -> Option<string>, imdbId: string,
                                       web: Web, i: nat)
    requires i <= |urls|
    requires forall j :: 0 <= j < i ==> NoScriptOn(urls[j], extract, imdbId, web)
    ensures DailyFrom(urls, extract, imdbId, web) == DailyFrom(urls[i..], extract, imdbId, web)
    decreases i
  {
    if i > 0 {
      DailySkip(urls, extract, imdbId, web);
      assert forall j :: 0 <= j < i - 1 ==> urls[1..][j] == urls[j + 1];
      DailySkipTo(urls[1..], extract, imdbId, web, i - 1);
      assert urls[1..][i - 1..] == urls[i..];
    }
  }

  /**
   * A candidate on the first listing page wins: the result is its
   * neighbour's script, and no later listing page is requested, so a
   * server that answers the same for the first listing page and for the
   * script gives the same result.
   */
  lemma DailyFirstPageWins(urls: seq<string>, extract: string -> Option<string>, imdbId: string,
                           web: Web, web2: Web)
    requires |urls| > 0
    requires web.get(urls[0]).Response? && web.get(urls[0]).status == 200
    requires LocateScript(web.get(urls[0]).page.anchors, extract, imdbId).Some?
    requires web2.get(urls[0]) == web.get(urls[0])
    requires var href := LocateScript(web.get(urls[0]).page.anchors, extract, imdbId).value;
             web2.get(DailySite + href) == web.get(DailySite + href)
    ensures DailyFrom(urls, extract, imdbId, web)
            == Some(FetchScript(LocateScript(web.get(urls[0]).page.anchors, extract, imdbId).value, web))
    ensures DailyFrom(urls, extract, imdbId, web) == DailyFrom(urls, extract, imdbId, web2)
  {
    var href := LocateScript(web.get(urls[0]).page.anchors, extract, imdbId).value;
    FetchScriptSameUrl(href, web, web2);
  }

  /** The script fetched for `href` depends only on what the server answers for its URL. */
  lemma FetchScriptSameUrl(href: string, web: Web, web2: Web)
    requires web2.get(DailySite + href) == web.get(DailySite + href)
    ensures FetchScript(href, web2) == FetchScript(href, web)
  {
  }
}

=== FILE: seqs.dfy ===
/** Order-preserving subsequences, used to state that a filter keeps its input's order. */
module Seqs {

  /** `a` can be obtained from `b` by deleting elements, keeping the order of the rest. */
  predicate IsSubseq<T(==)>(a: seq<T>, b: seq<T>)
    decreases |b|
  {
    if |a| == 0 then true
    else if |b| == 0 then false
    else if a[0] == b[0] then IsSubseq(a[1..], b[1..])
    else IsSubseq(a, b[1..])
  }

  /** Putting an element in front of the larger sequence keeps a subsequence one. */
  lemma {:induction false} IsSubseqCons<T>(a: seq<T>, b: seq<T>, x: T)
    requires IsSubseq(a, b)
    ensures IsSubseq(a, [x] + b)
    decreases |b|, 1
  {
    var b' := [x] + b;
    assert b'[1..] == b;
    if |a| > 0 && a[0] == x {
      IsSubseqDrop(a, b);
    }
  }

  /** Dropping the first element of a subsequence keeps it a subsequence. */
  lemma {:induction false} IsSubseqDrop<T>(a: seq<T>, b: seq<T>)
    requires |a| > 0 && IsSubseq(a, b)
    ensures IsSubseq(a[1..], b)
    decreases |b|, 0
  {
    if a[0] == b[0] {
      IsSubseqCons(a[1..], b[1..], b[0]);
    } else {
      IsSubseqDrop(a, b[1..]);
      IsSubseqCons(a[1..], b[1..], b[0]);
    }
    assert [b[0]] + b[1..] == b;
  }

  /**
   * The first index at or after `from` whose element satisfies `p`, or -1:
   * a Python `for … break` scan, or BeautifulSoup's `find`.
   */
  function FirstFrom<T>(xs: seq<T>, p: T -> bool, from: nat): (k: int)
    requires from <= |xs|
    ensures k == -1 || (from <= k < |xs| && p(xs[k]))
    ensures k == -1 ==> forall j :: from <= j < |xs| ==> !p(xs[j])
    ensures k != -1 ==> forall j :: from <= j < k ==> !p(xs[j])
    decreases |xs| - from
  {
    if from == |xs| then -1
    else if p(xs[from]) then from
    else FirstFrom(xs, p, from + 1)
  }

  /** The first index whose element satisfies `p`, or -1. */
  function First<T>(xs: seq<T>, p: T -> bool): (k: int)
    ensures k == -1 || (0 <= k < |xs| && p(xs[k]))
    ensures k == -1 ==> forall j :: 0 <= j < |xs| ==> !p(xs[j])
    ensures k != -1 ==> forall j :: 0 <= j < k ==> !p(xs[j])
  {
    FirstFrom(xs, p, 0)
  }
}

=== FILE: sum_scraper.dfy ===
/**
 * The Wikipedia summary pipeline: resolve a movie to a page title (Wikidata
 * by IMDb id first, free-text search second), read the page's table of
 * contents, keep the narratively relevant sections, fetch and clean each.
 *
 * Every web service is a function parameter returning what the code reads out
 * of the JSON reply, with `None` standing for a non-200 status. Section
 * content arrives as the text BeautifulSoup's `get_text(separator="\n")`
 * produced; the cleaning that follows it is modelled exactly.
 */
module SumScraper {
  import opened Wrappers
  import opened PyStr
  import opened Dicts
  import Seqs

  /** An entry of a page's table of contents: `{"index": …, "line": …}`. */
  datatype Section = Section(index: int, line: string)

  /** A Wikidata entity: its site links, from site name to linked page title. */
  datatype Entity = Entity(sitelinks: Dict<string, string>)

  /**
   * The four Wikipedia/Wikidata requests, as the data they yield:
   * - `wikidata(id)`: the entities bound to IMDb id `id`;
   * - `search(query)`: the titles of the search hits, best first;
   * - `toc(page)`: the page's sections (`[]` when the reply has none);
   * - `content(page, index)`: the section's text after HTML-to-text conversion.
   */
  datatype Wiki = Wiki(
    wikidata: string -> Option<seq<Entity>>,
    search: string -> Option<seq<string>>,
    toc: string -> Option<seq<Section>>,
    content: (string, int) -> Option<string>)

  // ---------------------------------------------------------------------------
  // Relevance filter
  // ---------------------------------------------------------------------------

  const Keywords: seq<string> := ["plot", "synopsis", "theme", "analysis", "story", "overview"]

  /** The lower-cased heading contains at least one keyword. */
  predicate IsRelevant(heading: string) {
    exists k | 0 <= k < |Keywords| :: Contains(Lower(heading), Keywords[k])
  }

  /**
   * `filter_relevant_sections`: the relevant sections, in page order. The
   * result is a subsequence of the input holding only relevant sections and
   * every relevant section as often as the input does.
   */
  function FilterRelevantSections(sections: seq<Section>): (r: seq<Section>)
    ensures forall s :: s in r ==> IsRelevant(s.line)
    ensures Seqs.IsSubseq(r, sections)
    ensures forall s: Section :: IsRelevant(s.line) ==> multiset(r)[s] == multiset(sections)[s]
  {
    if |sections| == 0 then []
    else
      var rest := FilterRelevantSections(sections[1..]);
      assert sections == [sections[0]] + sections[1..];
      if IsRelevant(sections[0].line) then [sections[0]] + rest
      else rest
  }

  /** Filtering an already filtered list changes nothing. */
  lemma {:induction false} FilterIdempotent(sections: seq<Section>)
    ensures FilterRelevantSections(FilterRelevantSections(sections)) == FilterRelevantSections(sections)
  {
    if |sections| > 0 {
      FilterIdempotent(sections[1..]);
    }
  }

  /** A section survives the filter exactly when its heading is relevant. */
  lemma FilterKeepsExactlyRelevant(sections: seq<Section>, s: Section)
    requires s in sections
    ensures s in FilterRelevantSections(sections) <==> IsRelevant(s.line)
  {
    var r := FilterRelevantSections(sections);
    if IsRelevant(s.line) {
      assert multiset(r)[s] == multiset(sections)[s] > 0;
    }
  }

  // ---------------------------------------------------------------------------
  // Text cleanup after HTML-to-text conversion (`strip_html_tags`)
  // ---------------------------------------------------------------------------

  /** The text `[edit]` links leave behind once converted with newline separators. */
  const EditArtifact := "[\nedit\n]"

  /** No two consecutive newlines. */
  predicate NoDoubleNewline(s: string) {
    forall i :: 0 <= i < |s| - 1 ==> !(s[i] == '\n' && s[i + 1] == '\n')
  }

  /** `s` with every newline removed: what collapsing runs of newlines must preserve. */
  function DropNewlines(s: string): string {
    if |s| == 0 then ""
    else if s[0] == '\n' then DropNewlines(s[1..])
    else [s[0]] + DropNewlines(s[1..])
  }

  /** `re.sub(r"\n+", "\n", s)`. */
  function CollapseNewlines(s: string): (r: string)
    ensures NoDoubleNewline(r)
    ensures |s| > 0 ==> |r| > 0 && r[0] == s[0]
    ensures DropNewlines(r) == DropNewlines(s)
    ensures |r| <= |s|
  {
    if |s| < 2 then s
    else if s[0] == '\n' && s[1] == '\n' then CollapseNewlines(s[1..])
    else
      var rest := CollapseNewlines(s[1..]);
      var r := [s[0]] + rest;
      assert r[1..] == rest;
      r
  }

  /**
   * Reference reading of `re.sub(r"\n+", "\n", s)`, scanning left to right:
   * the first newline of each run is kept and the rest of the run is
   * dropped, so every run becomes exactly one newline. `inRun` says that
   * the character before `s` was a newline.
   */
  function SqueezeRuns(s: string, inRun: bool): string
    decreases |s|
  {
    if |s| == 0 then ""
    else if s[0] == '\n' && inRun then SqueezeRuns(s[1..], true)
    else [s[0]] + SqueezeRuns(s[1..], s[0] == '\n')
  }

  /**
   * `CollapseNewlines`, which keeps the last newline of each run, agrees
   * with the reference, which keeps the first; after a newline the
   * reference drops the newline the collapse starts with.
   */
  lemma {:induction false} CollapseIsSqueeze(s: string)
    ensures CollapseNewlines(s) == SqueezeRuns(s, false)
    ensures |s| > 0 && s[0] == '\n' ==> SqueezeRuns(s[1..], true) == CollapseNewlines(s)[1..]
    ensures |s| > 0 && s[0] != '\n' ==> SqueezeRuns(s, true) == CollapseNewlines(s)
    decreases |s|
  {
    if |s| > 0 {
      var t := s[1..];
      CollapseIsSqueeze(t);
      if |s| == 1 {
        assert CollapseNewlines(s) == s;
      } else if s[0] != '\n' {
        assert CollapseNewlines(s) == [s[0]] + CollapseNewlines(t);
      } else if s[1] == '\n' {
        assert CollapseNewlines(s) == CollapseNewlines(t);
        assert CollapseNewlines(t)[0] == '\n';
        assert CollapseNewlines(s) == "\n" + CollapseNewlines(t)[1..];
      } else {
        assert CollapseNewlines(s) == "\n" + CollapseNewlines(t);
      }
    }
  }

  /** Collapsing a text that has no newline run leaves it as it is. */
  lemma {:induction false} CollapseNoRun(s: string)
    requires NoDoubleNewline(s)
    ensures CollapseNewlines(s) == s
  {
    if |s| >= 2 {
      CollapseNoRun(s[1..]);
    }
  }

  /** `\s*\n` matches from `start` to `j`: whitespace from `start` up to a newline at `j`. */
  ghost predicate RunToNewline(s: string, start: int, j: int) {
    0 <= start <= j < |s| && s[j] == '\n' && forall m :: start <= m < j ==> IsSpace(s[m])
  }

  /** `\s*\n` matches starting at `start`. */
  ghost predicate MarkerTail(s: string, start: int) {
    exists j :: RunToNewline(s, start, j)
  }

  /** The regex `\^\s*\n` matches at index `i`. */
  ghost predicate CaretMarkerAt(s: string, i: int) {
    0 <= i < |s| && s[i] == '^' && MarkerTail(s, i + 1)
  }

  /** Past a whitespace character other than a newline, the match may start one later. */
  lemma MarkerTailStep(s: string, k: nat)
    requires k < |s| && IsSpace(s[k]) && s[k] != '\n'
    ensures MarkerTail(s, k) <==> MarkerTail(s, k + 1)
  {
    if MarkerTail(s, k + 1) {
      var j :| RunToNewline(s, k + 1, j);
      assert RunToNewline(s, k, j);
    }
    if MarkerTail(s, k) {
      var j :| RunToNewline(s, k, j);
      assert RunToNewline(s, k + 1, j);
    }
  }

  /** The whitespace run starting at `k` reaches a newline. */
  function NewlineInSpaceRun(s: string, k: nat): (b: bool)
    requires k <= |s|
    ensures b <==> MarkerTail(s, k)
    decreases |s| - k
  {
    if k == |s| || !IsSpace(s[k]) then false
    else if s[k] == '\n' then
      assert RunToNewline(s, k, k);
      true
    else
      MarkerTailStep(s, k);
      NewlineInSpaceRun(s, k + 1)
  }

  /** The first index from `from` on where the caret marker matches, or -1. */
  function MarkerFrom(s: string, from: nat): (r: int)
    requires from <= |s|
    ensures r == -1 || (from <= r && CaretMarkerAt(s, r))
    decreases |s| - from
  {
    if from == |s| then -1
    else if s[from] == '^' && NewlineInSpaceRun(s, from + 1) then from
    else MarkerFrom(s, from + 1)
  }

  /** `MarkerFrom` skips no marker. */
  lemma {:induction false} MarkerFromFirst(s: string, from: nat)
    requires from <= |s|
    ensures var r := MarkerFrom(s, from);
            forall j :: from <= j && (r == -1 || j < r) ==> !CaretMarkerAt(s, j)
    decreases |s| - from
  {
    if from < |s| && !(s[from] == '^' && NewlineInSpaceRun(s, from + 1)) {
      MarkerFromFirst(s, from + 1);
    }
  }

  /** `re.split(r"\^\s*\n", s, maxsplit=1)[0]`: everything before the first caret marker. */
  function CutAtCaretMarker(s: string): (r: string)
    ensures StartsWith(s, r)
    ensures forall i :: !CaretMarkerAt(r, i)
    ensures |r| < |s| ==> CaretMarkerAt(s, |r|)
  {
    var m := MarkerFrom(s, 0);
    var r := if m == -1 then s else s[..m];
    CutIsMarkerFree(s, r);
    r
  }

  lemma CutIsMarkerFree(s: string, r: string)
    requires var m := MarkerFrom(s, 0); r == if m == -1 then s else s[..m]
    ensures forall i :: !CaretMarkerAt(r, i)
  {
    MarkerFromFirst(s, 0);
    forall i | CaretMarkerAt(r, i)
      ensures false
    {
      MarkerInSlice(s, 0, |r|, i);
    }
  }

  /** A caret marker inside a slice is a caret marker of the whole text. */
  lemma MarkerInSlice(s: string, a: int, b: int, i: int)
    requires 0 <= a <= b <= |s|
    requires CaretMarkerAt(s[a..b], i)
    ensures CaretMarkerAt(s, a + i)
  {
    var t := s[a..b];
    var j :| RunToNewline(t, i + 1, j);
    assert RunToNewline(s, a + i + 1, a + j) by {
      forall m | a + i + 1 <= m < a + j
        ensures IsSpace(s[m])
      {
        assert s[m] == t[m - a];
      }
    }
  }

  /** A slice of a text without newline runs has none either. */
  lemma NoDoubleNewlineSlice(s: string, a: int, b: int)
    requires 0 <= a <= b <= |s|
    requires NoDoubleNewline(s)
    ensures NoDoubleNewline(s[a..b])
  {
    var t := s[a..b];
    forall i | 0 <= i < |t| - 1
      ensures !(t[i] == '\n' && t[i + 1] == '\n')
    {
      assert t[i] == s[a + i] && t[i + 1] == s[a + i + 1];
    }
  }

  /**
   * `r` is `c` up to its first caret marker (all of `c` when there is
   * none), stripped of surrounding whitespace.
   */
  ghost predicate StrippedBeforeMarker(c: string, r: string) {
    exists n :: && 0 <= n <= |c| && (n == |c| || CaretMarkerAt(c, n))
                && (forall i :: !CaretMarkerAt(c[..n], i))
                && Trimmed(c[..n], r)
  }

  lemma StrippedBeforeMarkerBy(c: string, cut: string, r: string)
    requires StartsWith(c, cut)
    requires forall i :: !CaretMarkerAt(cut, i)
    requires |cut| < |c| ==> CaretMarkerAt(c, |cut|)
    requires Trimmed(cut, r)
    ensures StrippedBeforeMarker(c, r)
  {
    assert cut == c[..|cut|];
  }

  /** At most one text meets the description, so it determines the cleaned text. */
  lemma StrippedBeforeMarkerUnique(c: string, r1: string, r2: string)
    requires StrippedBeforeMarker(c, r1) && StrippedBeforeMarker(c, r2)
    ensures r1 == r2
  {
    var n1 :| && 0 <= n1 <= |c| && (n1 == |c| || CaretMarkerAt(c, n1))
              && (forall i :: !CaretMarkerAt(c[..n1], i)) && Trimmed(c[..n1], r1);
    var n2 :| && 0 <= n2 <= |c| && (n2 == |c| || CaretMarkerAt(c, n2))
              && (forall i :: !CaretMarkerAt(c[..n2], i)) && Trimmed(c[..n2], r2);
    if n1 < n2 {
      MarkerBeforeCut(c, n1, n2);
    } else if n2 < n1 {
      MarkerBeforeCut(c, n2, n1);
    }
    TrimmedUnique(c[..n1], r1, r2);
  }

  /**
   * A caret marker at `m` lies wholly before a cut at `n > m` that is the
   * end or another marker: the marker's whitespace run cannot pass a `^`.
   */
  lemma MarkerBeforeCut(c: string, m: int, n: int)
    requires 0 <= m < n <= |c|
    requires CaretMarkerAt(c, m) && (n == |c| || CaretMarkerAt(c, n))
    ensures CaretMarkerAt(c[..n], m)
  {
    var j :| RunToNewline(c, m + 1, j);
    assert RunToNewline(c[..n], m + 1, j);
  }

  /** `re.sub(r"\[\nedit\n\]", "", text)`: the artifacts removed left to right. */
  function RemoveEdits(text: string): string {
    Join(Split(text, EditArtifact), "")
  }

  /**
   * `strip_html_tags` after `get_text`: drop `[edit]` artifacts, collapse
   * newline runs, cut at the first caret marker, collapse again, strip.
   * The result is the collapsed, artifact-free text up to its first caret
   * marker (all of it when there is none), with the surrounding whitespace
   * removed; it has no blank line and no caret marker.
   */
  function CleanText(text: string): (r: string)
    ensures StrippedBeforeMarker(CollapseNewlines(RemoveEdits(text)), r)
    ensures r == [] || (!IsSpace(r[0]) && !IsSpace(r[|r| - 1]))
    ensures NoDoubleNewline(r)
    ensures forall i :: !CaretMarkerAt(r, i)
  {
    var noEdit := RemoveEdits(text);
    var collapsed := CollapseNewlines(noEdit);
    var cut := CutAtCaretMarker(collapsed);
    NoDoubleNewlineSlice(collapsed, 0, |cut|);
    assert cut == collapsed[0..|cut|];
    var recollapsed := CollapseNewlines(cut);
    CollapseNoRun(cut);
    var r := Strip(recollapsed);
    StripKeepsBounds(recollapsed);
    StripIsTrimmed(cut, r);
    StrippedBeforeMarkerBy(collapsed, cut, r);
    r
  }

  /** Stripping a text free of newline runs and caret markers leaves it free of both. */
  lemma StripKeepsBounds(s: string)
    requires NoDoubleNewline(s)
    requires forall i :: !CaretMarkerAt(s, i)
    ensures NoDoubleNewline(Strip(s))
    ensures forall i :: !CaretMarkerAt(Strip(s), i)
  {
    var r := Strip(s);
    var a := LeadingSpaces(s);
    assert r == s[a..a + |r|];
    NoDoubleNewlineSlice(s, a, a + |r|);
    forall i | CaretMarkerAt(r, i)
      ensures false
    {
      MarkerInSlice(s, a, a + |r|, i);
    }
  }

  /**
   * The steps after `[edit]` removal leave a text alone when it has no
   * newline run, no caret and no surrounding whitespace.
   */
  lemma CleanTail(s: string)
    requires NoDoubleNewline(s) && '^' !in s
    requires s == [] || (!IsSpace(s[0]) && !IsSpace(s[|s| - 1]))
    ensures CutAtCaretMarker(s) == s
    ensures Strip(CollapseNewlines(s)) == s
  {
    var r := CutAtCaretMarker(s);
    if |r| < |s| {
      assert s[|r|] == '^';
    }
    CollapseNoRun(s);
    assert OccursAt(s, s, 0) by {
      assert s[0..|s|] == s;
    }
    StripIsTrimmed(s, s);
  }

  /** A text that is already clean in every respect is its own cleaning. */
  lemma CleanFixed(s: string)
    requires !Contains(s, EditArtifact) && NoDoubleNewline(s) && '^' !in s
    requires s == [] || (!IsSpace(s[0]) && !IsSpace(s[|s| - 1]))
    ensures CleanText(s) == s
  {
    SplitFirst(s, EditArtifact);
    FindSpec(s, EditArtifact);
    assert Join(Split(s, EditArtifact), "") == s;
    CleanTail(s);
  }

  /**
   * Cleaning is not idempotent: a blank line inside an `[edit]` artifact
   * hides it from the removal step, the collapse step then rebuilds it,
   * and only a second cleaning removes it.
   */
  lemma CleanTextNotIdempotent()
    ensures CleanText("[\n\nedit\n]") == EditArtifact
    ensures CleanText(CleanText("[\n\nedit\n]")) == ""
  {
    CleanBlankArtifact();
    CleanArtifact();
  }

  /** The artifact with a blank line survives removal and is rebuilt by the collapse. */
  lemma CleanBlankArtifact()
    ensures CleanText("[\n\nedit\n]") == EditArtifact
  {
    var x := "[\n\nedit\n]";
    var e := EditArtifact;
    assert Join(Split(x, e), "") == x by {
      assert !Contains(x, e) by {
        assert x[0..|e|][2] != e[2];
        assert x[1..1 + |e|][0] != e[0];
      }
      SplitFirst(x, e);
      FindSpec(x, e);
    }
    CollapseBlankArtifact(x);
    ArtifactShape();
    CleanTail(e);
  }

  /** The artifact has no newline run, no caret and no surrounding whitespace. */
  lemma ArtifactShape()
    ensures var e := EditArtifact;
            && NoDoubleNewline(e) && '^' !in e
            && !IsSpace(e[0]) && !IsSpace(e[|e| - 1])
  {
    var e := EditArtifact;
    assert e == ['[', '\n', 'e', 'd', 'i', 't', '\n', ']'];
    forall i | 0 <= i < |e| - 1
      ensures !(e[i] == '\n' && e[i + 1] == '\n')
    {
    }
  }

  lemma CollapseBlankArtifact(x: string)
    requires x == "[\n\nedit\n]"
    ensures CollapseNewlines(x) == EditArtifact
  {
    CollapseNoRun(x[2..]);
    assert x[1..][1..] == x[2..];
    assert [x[0]] + x[2..] == EditArtifact;
  }

  /** The artifact itself cleans to nothing. */
  lemma CleanArtifact()
    ensures CleanText(EditArtifact) == ""
  {
    var e := EditArtifact;
    assert Join(Split(e, e), "") == "" by {
      FindAt(e, e, 0);
      assert Find("", e) == -1;
      assert e[|e|..] == "";
      assert Split(e, e) == ["", ""];
    }
    CleanTail("");
  }

  // ---------------------------------------------------------------------------
  // Title resolution
  // ---------------------------------------------------------------------------

  /** The entity at `i` links to the English Wikipedia. */
  predicate HasEnwiki(entities: seq<Entity>, i: int) {
    0 <= i < |entities| && "enwiki" in Keys(entities[i].sitelinks)
  }

  /**
   * `get_wikipedia_page_from_wikidata` on a reply: the `enwiki` title of the
   * first entity that has one.
   */
  function WikidataTitle(reply: Option<seq<Entity>>): (r: Option<string>)
    ensures r.Some? <==> reply.Some? && exists i :: HasEnwiki(reply.value, i)
    ensures r.Some? ==> exists i :: HasEnwiki(reply.value, i)
                         && (forall j :: 0 <= j < i ==> !HasEnwiki(reply.value, j))
                         && Some(r.value) == Get(reply.value[i].sitelinks, "enwiki")
  {
    match reply
    case None => None
    case Some(entities) => FirstEnwiki(entities)
  }

  function FirstEnwiki(entities: seq<Entity>): (r: Option<string>)
    ensures r.Some? <==> exists i :: HasEnwiki(entities, i)
    ensures r.Some? ==> exists i :: HasEnwiki(entities, i)
                         && (forall j :: 0 <= j < i ==> !HasEnwiki(entities, j))
                         && Some(r.value) == Get(entities[i].sitelinks, "enwiki")
  {
    if |entities| == 0 then None
    else if "enwiki" in Keys(entities[0].sitelinks) then
      assert HasEnwiki(entities, 0);
      Get(entities[0].sitelinks, "enwiki")
    else
      var r := FirstEnwiki(entities[1..]);
      assert forall i :: HasEnwiki(entities[1..], i) <==> HasEnwiki(entities, i + 1);
      assert forall i :: HasEnwiki(entities, i) ==> i == 0 || HasEnwiki(entities[1..], i - 1);
      r
  }

  /** The `srsearch` string: the title, then the director when one is given. */
  function SearchQuery(title: string, director: Option<string>): string {
    if Truthy(director) then title + " " + director.value else title
  }

  /** `search_wikipedia_page` on a reply: the first hit's title. */
  function FirstHit(reply: Option<seq<string>>): Option<string> {
    if reply.Some? && |reply.value| > 0 then Some(reply.value[0]) else None
  }

  /** The title from Wikidata, consulted only when an IMDb id is given. */
  function WikidataStep(imdbId: Option<string>, wiki: Wiki): Option<string> {
    if Truthy(imdbId) then WikidataTitle(wiki.wikidata(imdbId.value)) else None
  }

  /** Steps 1 and 2 of `get_wikipedia_summary`: Wikidata, and search only when that gives no title. */
  function ResolveTitle(title: string, director: Option<string>, imdbId: Option<string>, wiki: Wiki): Option<string> {
    var fromWikidata := WikidataStep(imdbId, wiki);
    if Truthy(fromWikidata) then fromWikidata
    else FirstHit(wiki.search(SearchQuery(title, director)))
  }

  /**
   * A Wikidata title wins: when the IMDb id resolves to a page, the search
   * service is never asked, so replacing it changes nothing.
   */
  lemma WikidataHitSkipsSearch(title: string, director: Option<string>, imdbId: Option<string>,
                               wiki: Wiki, otherSearch: string -> Option<seq<string>>)
    requires Truthy(WikidataStep(imdbId, wiki))
    ensures ResolveTitle(title, director, imdbId, wiki) == WikidataStep(imdbId, wiki)
    ensures GetWikipediaSummary(title, director, imdbId, wiki)
            == GetWikipediaSummary(title, director, imdbId, wiki.(search := otherSearch))
  {
    var other := wiki.(search := otherSearch);
    assert WikidataStep(imdbId, other) == WikidataStep(imdbId, wiki);
    SummaryUsesPageServices(title, WikidataStep(imdbId, wiki), wiki, other);
  }

  /** Once the page is known, only the table-of-contents and content services matter. */
  lemma SummaryUsesPageServices(title: string, page: Option<string>, wiki: Wiki, other: Wiki)
    requires other.toc == wiki.toc && other.content == wiki.content
    ensures SummaryForPage(title, page, other) == SummaryForPage(title, page, wiki)
  {
  }

  /**
   * Without a usable IMDb id, or when Wikidata has no `enwiki` link, the
   * title is the first search hit for the title (and director), and the
   * Wikidata service does not matter.
   */
  lemma SearchFallback(title: string, director: Option<string>, imdbId: Option<string>,
                       wiki: Wiki, otherWikidata: string -> Option<seq<Entity>>)
    requires !Truthy(imdbId) || !Truthy(WikidataTitle(wiki.wikidata(imdbId.value)))
    requires !Truthy(imdbId) || !Truthy(WikidataTitle(otherWikidata(imdbId.value)))
    ensures Truthy(director) ==>
              ResolveTitle(title, director, imdbId, wiki) == FirstHit(wiki.search(title + " " + director.value))
    ensures !Truthy(director) ==>
              ResolveTitle(title, director, imdbId, wiki) == FirstHit(wiki.search(title))
    ensures ResolveTitle(title, director, imdbId, wiki)
            == ResolveTitle(title, director, imdbId, wiki.(wikidata := otherWikidata))
  {
  }

  // ---------------------------------------------------------------------------
  // Section content and the summary result
  // ---------------------------------------------------------------------------

  /** The request for section `i` came back with status 200. */
  predicate Fetched(page: string, sections: seq<Section>, content: (string, int) -> Option<string>, i: int) {
    0 <= i < |sections| && content(page, sections[i].index).Some?
  }

  /** The cleaned text of a fetched section. */
  function CleanedAt(page: string, sections: seq<Section>, content: (string, int) -> Option<string>, i: int): string
    requires Fetched(page, sections, content, i)
  {
    CleanText(content(page, sections[i].index).value)
  }

  /** `fetch_section_content`: heading to cleaned text, for every section whose fetch succeeded. */
  function FetchSectionContent(page: string, sections: seq<Section>, content: (string, int) -> Option<string>)
    : (details: Dict<string, string>)
    ensures UniqueKeys(details)
    decreases |sections|
  {
    if |sections| == 0 then []
    else
      var n := |sections| - 1;
      var before := FetchSectionContent(page, sections[..n], content);
      match content(page, sections[n].index)
      case None => before
      case Some(text) =>
        PutUnique(before, sections[n].line, CleanText(text));
        Put(before, sections[n].line, CleanText(text))
  }

  /** A section with heading `h` whose fetch succeeded. */
  predicate FetchedWith(page: string, sections: seq<Section>, content: (string, int) -> Option<string>,
                        h: string, i: int) {
    Fetched(page, sections, content, i) && sections[i].line == h
  }

  /**
   * Independent reference: the index of the last fetched section whose
   * heading is `h`, or -1 when there is none.
   */
  function LastFetched(page: string, sections: seq<Section>, content: (string, int) -> Option<string>,
                       h: string): (r: int)
    ensures r == -1 ==> forall i :: !FetchedWith(page, sections, content, h, i)
    ensures r != -1 ==> FetchedWith(page, sections, content, h, r)
    ensures r != -1 ==> forall j :: r < j < |sections| ==> !FetchedWith(page, sections, content, h, j)
    decreases |sections|
  {
    if |sections| == 0 then -1
    else
      var n := |sections| - 1;
      if FetchedWith(page, sections, content, h, n) then n
      else
        var r := LastFetched(page, sections[..n], content, h);
        assert forall i :: 0 <= i < n ==>
          (FetchedWith(page, sections[..n], content, h, i) <==> FetchedWith(page, sections, content, h, i));
        r
  }

  /**
   * The details map a heading exactly when some section with that heading
   * was fetched, to the cleaned text of the last such section.
   */
  lemma {:induction false} FetchSectionContentSpec(page: string, sections: seq<Section>,
                                                   content: (string, int) -> Option<string>, h: string)
    ensures var i := LastFetched(page, sections, content, h);
            Get(FetchSectionContent(page, sections, content), h)
            == if i == -1 then None else Some(CleanedAt(page, sections, content, i))
    decreases |sections|
  {
    if |sections| > 0 {
      var n := |sections| - 1;
      var prefix := sections[..n];
      FetchSectionContentSpec(page, prefix, content, h);
      LastFetchedStep(page, sections, content, h);
      FetchStep(page, sections, content);
    }
  }

  /** How the reference index changes when one section is appended. */
  lemma LastFetchedStep(page: string, sections: seq<Section>, content: (string, int) -> Option<string>, h: string)
    requires |sections| > 0
    ensures var n := |sections| - 1;
            var i := LastFetched(page, sections[..n], content, h);
            && LastFetched(page, sections, content, h)
               == (if FetchedWith(page, sections, content, h, n) then n else i)
            && (i != -1 ==> CleanedAt(page, sections[..n], content, i) == CleanedAt(page, sections, content, i))
  {
    var n := |sections| - 1;
    var i := LastFetched(page, sections[..n], content, h);
    if i != -1 {
      assert sections[..n][i] == sections[i];
    }
  }

  /** How the details change when one section is appended. */
  lemma FetchStep(page: string, sections: seq<Section>, content: (string, int) -> Option<string>)
    requires |sections| > 0
    ensures var n := |sections| - 1;
            var before := FetchSectionContent(page, sections[..n], content);
            FetchSectionContent(page, sections, content)
            == match content(page, sections[n].index)
               case None => before
               case Some(text) => Put(before, sections[n].line, CleanText(text))
  {
  }

  /** The single-key error record `{"error": message}`. */
  function ErrorResult(message: string): Dict<string, string> {
    [("error", message)]
  }

  /** The result is an error record rather than section details. */
  predicate IsErrorResult(d: Dict<string, string>) {
    |d| == 1 && d[0].0 == "error"
  }

  /** Steps 3 to 6 of `get_wikipedia_summary`, once the page title is settled. */
  function SummaryForPage(title: string, page: Option<string>, wiki: Wiki): Dict<string, string> {
    if !Truthy(page) then ErrorResult("No Wikipedia page found for '" + title + "'")
    else
      var p := page.value;
      var sections := wiki.toc(p);
      if sections.None? || |sections.value| == 0 then ErrorResult("No sections found for '" + p + "'")
      else
        var relevant := FilterRelevantSections(sections.value);
        if |relevant| == 0 then ErrorResult("No relevant content found for '" + p + "'")
        else
          var details := FetchSectionContent(p, relevant, wiki.content);
          if |details| == 0 then ErrorResult("No detailed content retrieved for '" + p + "'")
          else details
  }

  /** `get_wikipedia_summary`. */
  function GetWikipediaSummary(title: string, director: Option<string>, imdbId: Option<string>, wiki: Wiki)
    : Dict<string, string>
  {
    SummaryForPage(title, ResolveTitle(title, director, imdbId, wiki), wiki)
  }

  /** Every stage after title resolution yields something. */
  predicate PageSucceeds(page: Option<string>, wiki: Wiki) {
    && Truthy(page)
    && var sections := wiki.toc(page.value);
    && sections.Some?
    && |sections.value| > 0
    && var relevant := FilterRelevantSections(sections.value);
    && |relevant| > 0
    && |FetchSectionContent(page.value, relevant, wiki.content)| > 0
  }

  /** The pipeline gets as far as non-empty details. */
  predicate Succeeds(title: string, director: Option<string>, imdbId: Option<string>, wiki: Wiki) {
    PageSucceeds(ResolveTitle(title, director, imdbId, wiki), wiki)
  }

  /** "error" is not a relevant heading, so no details map can be mistaken for an error record. */
  lemma ErrorIsNotRelevant()
    ensures !IsRelevant("error")
  {
    var e := Lower("error");
    assert e == "error";
    forall k | 0 <= k < |Keywords|
      ensures !Contains(e, Keywords[k])
    {
      var kw := Keywords[k];
      if k == 5 {
        assert |kw| > |e|;
      } else {
        assert kw[0] in "pstsa";
        AbsentHead(e, kw);
      }
    }
  }

  /** Every heading in the details is the heading of one of the given sections. */
  lemma DetailKeysAreHeadings(page: string, sections: seq<Section>, content: (string, int) -> Option<string>,
                              k: string)
    requires k in Keys(FetchSectionContent(page, sections, content))
    ensures exists s :: s in sections && s.line == k
  {
    FetchSectionContentSpec(page, sections, content, k);
    var i := LastFetched(page, sections, content, k);
    assert sections[i] in sections;
  }

  /**
   * The result is the single-key error record exactly when a stage came up
   * empty, and then it carries the message of the first stage that did;
   * otherwise it is a non-empty map whose keys are headings of relevant
   * sections of the resolved page, none of them "error".
   */
  lemma SummaryResultShape(title: string, director: Option<string>, imdbId: Option<string>, wiki: Wiki)
    ensures var r := GetWikipediaSummary(title, director, imdbId, wiki);
            && (IsErrorResult(r) <==> !Succeeds(title, director, imdbId, wiki))
            && (Succeeds(title, director, imdbId, wiki) ==>
                  && |r| > 0
                  && UniqueKeys(r)
                  && forall k :: k in Keys(r) ==> IsRelevant(k) && k != "error")
    ensures StageMessages(title, ResolveTitle(title, director, imdbId, wiki), wiki,
                          GetWikipediaSummary(title, director, imdbId, wiki))
  {
    PageResultShape(title, ResolveTitle(title, director, imdbId, wiki), wiki);
  }

  /**
   * The stages are tried in the order page, sections, relevant sections,
   * details, and `r` is what the first stage to come up empty reports, or
   * the details when none does. The page title in the messages is the
   * movie title for the first stage and the resolved page title after it.
   */
  predicate StageMessages(title: string, page: Option<string>, wiki: Wiki, r: Dict<string, string>) {
    && (!Truthy(page) ==> r == ErrorResult("No Wikipedia page found for '" + title + "'"))
    && (Truthy(page) ==>
          var p := page.value;
          var toc := wiki.toc(p);
          && (toc.None? || |toc.value| == 0 ==> r == ErrorResult("No sections found for '" + p + "'"))
          && (toc.Some? && |toc.value| > 0 ==>
                var relevant := FilterRelevantSections(toc.value);
                var details := FetchSectionContent(p, relevant, wiki.content);
                && (|relevant| == 0 ==> r == ErrorResult("No relevant content found for '" + p + "'"))
                && (|relevant| > 0 && |details| == 0 ==>
                      r == ErrorResult("No detailed content retrieved for '" + p + "'"))
                && (|relevant| > 0 && |details| > 0 ==> r == details)))
  }

  /** `SummaryResultShape` for an already resolved page title. */
  lemma PageResultShape(title: string, page: Option<string>, wiki: Wiki)
    ensures var r := SummaryForPage(title, page, wiki);
            && (IsErrorResult(r) <==> !PageSucceeds(page, wiki))
            && (PageSucceeds(page, wiki) ==>
                  && |r| > 0
                  && UniqueKeys(r)
                  && forall k :: k in Keys(r) ==> IsRelevant(k) && k != "error")
    ensures StageMessages(title, page, wiki, SummaryForPage(title, page, wiki))
  {
    if PageSucceeds(page, wiki) {
      var p := page.value;
      var relevant := FilterRelevantSections(wiki.toc(p).value);
      var r := FetchSectionContent(p, relevant, wiki.content);
      assert SummaryForPage(title, page, wiki) == r;
      ErrorIsNotRelevant();
      forall k | k in Keys(r)
        ensures IsRelevant(k) && k != "error"
      {
        DetailKeysAreHeadings(p, relevant, wiki.content, k);
      }
      assert r[0].0 in Keys(r);
    }
  }
}

=== FILE: wrappers.dfy ===
/** The optional value used wherever the Python code returns `None` or a value. */
module Wrappers {

  datatype Option<+T> = None | Some(value: T) {

    /** The value, or `default` when there is none. */
    function GetOr(default: T): T {
      match this
      case Some(v) => v
      case None => default
    }
  }

  /** Python truthiness of an optional string: `None` and `""` are false. */
  predicate Truthy(o: Option<string>) {
    o.Some? && o.value != ""
  }
}
